=== FILE: README.md ===
# Radio ingest worker and supervisor, in Dafny

A model of the radio-ingest core: `RadioWorker` and `payload` in
`ingest-orig/images/worker/radio_worker.py`, and the `RadioPool` supervisor
in `ingest-orig/images/worker/radio_pool.py`. Many worker processes share
one PostgreSQL job store. Each worker claims one station's job under a
session-scoped advisory lock and then pulls audio chunks from the
station's stream forever, uploading each chunk to object storage. Each
success is logged in `app.chunks`; each failure is counted in
`app.jobs.error_count`. A worker only ever ends by raising. The supervisor
keeps `n_tasks` workers alive by respawning every one that raised. It
treats a worker that returned as a fatal error.

The modules follow the program:

- `JobStore` (job_store.dfy): job rows, chunk records, station rows, the
  advisory-lock table and its operations.
  - One-argument and two-argument lock keys are distinct constructors, as
    they are distinct key spaces in PostgreSQL.
  - `SetupKey` is the reserved key (0, 0).
  - A `Threshold` is `Disabled` (a `None` threshold) or `Limit(n)`.
- `Claim` (claim.dfy): the recursive claim query of `lock_task`, and the
  spin loop of `acquire_task`.
  - `LeastClaimable` is an independent reference definition: the least
    unlocked id under the threshold.
  - Helper modules: `Ordering` (ordering.dfy) and `LeastElement`.
- `Config` (config.dfy): the keyword-argument validation and defaults of
  both constructors.
- `ObjectKeys` (object_keys.dfy): the object key (POSIX `os.path.join` of
  prefix, station and the decimal microsecond timestamp) and the recorded
  `s3://` URL.
- `Ingest` (ingest.dfy): the loop of `run`.
  - Each iteration checks the stop conditions first.
  - The stream and the upload are an oracle: each iteration is given one
    `ChunkOutcome`.
- `Bootstrap` (bootstrap.dfy): the bootstrap-once gate of `do_db_setup`,
  as the code runs it and as it is evidently meant (see Findings).
- `Worker` (worker.dfy): `payload` for one session, `close`, and
  `release_lock`.
- `Pool` (pool.dfy): spawning, and the respawn tick of `RadioPool.run`.
- `Cluster` (cluster.dfy): every interleaving of many workers' atomic
  database actions. It proves:
  - Mutual exclusion: no two sessions hold one station.
  - Bootstrap-once: at most one completed load, and at most one session
    loading.
  - A released or crashed holder's station becomes claimable again.
  - The setup work runs in one of two modes: `Autocommit`, as the code
    runs it, or `Transactional`, the corrected load of the Findings. Only
    the transactional mode keeps the schema marker consistent with the
    data.
  - `RadioPool.close`.
- `Scenarios` (scenarios.dfy): three concrete runs.
  - A failing station is retired once its threshold is reached.
  - Two workers split two jobs.
  - A crashed holder's job is taken over.
- `Outcomes` (outcomes.dfy): `Option` and `Result`.

Where the code may surprise a reader, the model follows the code:

- The supervisor does not validate `chunk_error_behavior`. A bad value is
  not a fatal error at start-up. Instead, every worker raises `ValueError`
  in its constructor and is respawned, forever (`Config.WorkerFromPoolArgs`).
- The stream is not opened once per chunk.
  - `run` constructs the `AudioStream` only while `stream is None`, calls
    `stream.close()` after every iteration, and never resets it to `None`.
    So the stream is opened at most once (`Ingest.RunOpensStreamAtMostOnce`).
  - What a closed stream then yields is left to the oracle.
- The bootstrap load is not transactional, because the connection runs in
  autocommit mode (see Findings). `Worker.Payload` runs the setup work as
  written (`Bootstrap.DoDbSetupAsWritten`).
- Two configuration errors come from the runtime rather than from the
  constructors' own checks. Both are modelled as raised:
  - leftover keyword arguments (the `TypeError` of `object.__init__`);
  - a pool of fewer than one process (the `ValueError` of
    `multiprocessing.Pool`).

## Model

| member | source | states |
|---|---|---|
| `JobStore.TryLock` | ingest-orig/images/worker/radio_worker.py:87-91 | the non-blocking try-lock succeeds exactly when no other session holds the key, and changes no other key |
| `JobStore.Unlock` | ingest-orig/images/worker/radio_worker.py:147-154 | unlock reports true exactly when the caller held the key, and then releases only that key |
| `JobStore.EndSession` | ingest-orig/images/worker/radio_worker.py:162-165 | when a session ends, the server drops exactly the locks it held and keeps everyone else's |
| `JobStore.RecordFailure` | ingest-orig/images/worker/radio_worker.py:388-398 | the failure update adds one to `error_count` and sets `last_error` on the held row only; a deleted row is updated nowhere |
| `JobStore.LockUnlockRoundTrip` | ingest-orig/images/worker/radio_worker.py:147-154 | locking a free key and unlocking it restores the lock table |
| `Claim.ScanFrom` | ingest-orig/images/worker/radio_worker.py:104-131 | the recursive step returns the least claimable id above the previous one and locks only it; otherwise no claimable id lies above and nothing is locked |
| `Claim.LockTaskIsLeastClaimable` | ingest-orig/images/worker/radio_worker.py:76-145 | `lock_task` returns k exactly when k is the least claimable id, and `None` exactly when no job is claimable |
| `Claim.LockTaskLocksOnlyResult` | ingest-orig/images/worker/radio_worker.py:133-138 | only the returned id gets locked, by the caller; contended ids skipped on the way keep their owners |
| `Claim.ThresholdExclusion` | ingest-orig/images/worker/radio_worker.py:94-101 | with a threshold set, a job at or above it is never claimed, even when unlocked |
| `Claim.ContendedIsSkipped` | ingest-orig/images/worker/radio_worker.py:104-131 | a locked id is skipped rather than waited on: if any job is claimable, the claim succeeds with an id no larger than it |
| `Claim.AcquireTask` | ingest-orig/images/worker/radio_worker.py:305-320 | the spin loop stops at the first attempt that claims, with the least claimable id of that attempt; if none claims, every attempt saw nothing claimable |
| `Config.ParsePolicy` | ingest-orig/images/worker/radio_worker.py:50-51 | only 'exit' and 'ignore' are policies |
| `Config.NewWorker` | ingest-orig/images/worker/radio_worker.py:32-61 | the constructor fails on a missing bucket, then on leftover keys, then on a bad policy, and otherwise keeps the given settings or their defaults; the policy error names the policy string it rejected |
| `Config.WorkerDefaults` | ingest-orig/images/worker/radio_worker.py:39-46 | with only a bucket, a worker gets DSN 'Database', an empty prefix, 'ignore', threshold 10, 5 MiB chunks, a 300 s poll interval and bootstrap on |
| `Config.NewPool` | ingest-orig/images/worker/radio_pool.py:15-35 | the supervisor fails on a missing bucket, then on leftover keys, then on fewer than one task, with the pool-size error naming the size; it does not check the policy string, and otherwise keeps every setting or its default |
| `Config.WorkerFromPoolArgs` | ingest-orig/images/worker/radio_pool.py:58-68 | workers built from the supervisor's arguments inherit its settings and fail exactly when the policy string is invalid |
| `ObjectKeys.Decimal` | ingest-orig/images/worker/radio_worker.py:377 | the timestamp renders as a non-empty string of decimal digits with no leading zero |
| `ObjectKeys.ParseDecimalRoundTrip` | ingest-orig/images/worker/radio_worker.py:377 | reading the rendered timestamp back gives the timestamp |
| `ObjectKeys.DecimalInjective` | ingest-orig/images/worker/radio_worker.py:377 | distinct timestamps render differently |
| `ObjectKeys.ChunkKeyLayout` | ingest-orig/images/worker/radio_worker.py:378 | the key is `prefix/station/timestamp`, or `station/timestamp` with the default empty prefix |
| `ObjectKeys.JoinRelativeInjective` | ingest-orig/images/worker/radio_worker.py:378 | joining a relative component to a fixed head loses no information |
| `ObjectKeys.ChunkKeysDistinct` | ingest-orig/images/worker/radio_worker.py:377-378 | two chunks of one station at different microseconds never share a key |
| `ObjectKeys.S3UrlInjective` | ingest-orig/images/worker/radio_worker.py:385 | distinct keys give distinct recorded URLs |
| `Ingest.GetStopConditions` | ingest-orig/images/worker/radio_worker.py:170-201 | `deleted` holds exactly when the held row is gone; `failed` only for an existing row with a threshold set |
| `Ingest.FailedIsNotEligible` | ingest-orig/images/worker/radio_worker.py:188-195 | `failed` is exactly the negation of the claim query's eligibility filter, and never holds with no threshold |
| `Ingest.StopCheck` | ingest-orig/images/worker/radio_worker.py:357-365 | the check cancels exactly on a deleted row, reports too many failures exactly on an ineligible row, and passes otherwise |
| `Ingest.ApplyOutcome` | ingest-orig/images/worker/radio_worker.py:367-421 | a chunk uploads one object under its key and appends its record; a failure records itself and ends the worker only under 'exit' or at end of stream; the stream is closed afterwards |
| `Ingest.Run` | ingest-orig/images/worker/radio_worker.py:356-421 | the loop ends only by cancellation, too many failures, a re-raised chunk failure or end of stream, and touches no other job row |
| `Ingest.IngestLoop` | ingest-orig/images/worker/radio_worker.py:356-421 | the imperative loop computes the same progress as the recursive definition |
| `Ingest.RunAppend` | ingest-orig/images/worker/radio_worker.py:356-421 | running two oracle sequences one after the other is running their concatenation |
| `Ingest.ChecksPrecedeFetch` | ingest-orig/images/worker/radio_worker.py:356-374 | a deleted or over-threshold job ends the worker before any chunk is pulled |
| `Ingest.FailureEndsUnderExit` | ingest-orig/images/worker/radio_worker.py:400-403 | under 'exit', and at end of stream under either policy, one failure is recorded and ends the worker |
| `Ingest.IgnoredFailuresAccumulate` | ingest-orig/images/worker/radio_worker.py:387-405 | under 'ignore', K failures below the threshold raise `error_count` by exactly K, keep the last message, and do not end the worker |
| `Ingest.ThresholdReachedStops` | ingest-orig/images/worker/radio_worker.py:362-365 | once ignored failures reach the threshold, the next stop check ends the worker with too many failures |
| `Ingest.UploadsAppendInOrder` | ingest-orig/images/worker/radio_worker.py:406-414 | successful chunks append their records and objects in order, with keys from the station and timestamps |
| `Ingest.RunOpensStreamAtMostOnce` | ingest-orig/images/worker/radio_worker.py:370-421 | the stream is constructed at most once per run and is never left open after an iteration |
| `Bootstrap.EnterGate` | ingest-orig/images/worker/radio_worker.py:209-235 | the reserved lock is lost exactly when another session holds it; a winner keeps it and proceeds exactly when the schema marker is absent |
| `Bootstrap.FinishSetup` | ingest-orig/images/worker/radio_worker.py:237-293 | the corrected, transactional setup step: the load is done exactly when it succeeded, and a failure leaves the catalog unchanged (the code does not roll back; see Findings) |
| `Bootstrap.DoDbSetup` | ingest-orig/images/worker/radio_worker.py:203-303 | the corrected, transactional `do_db_setup`: skipped exactly when another session holds (0, 0), a no-op when the marker exists, loads only on a fresh database, never touches station locks, and a failure leaves the catalog unchanged |
| `Bootstrap.DoDbSetupKeepsConsistent` | ingest-orig/images/worker/radio_worker.py:203-303 | with a transactional load, the marker exists only with the data |
| `Bootstrap.FinishSetupAsWritten` | ingest-orig/images/worker/radio_worker.py:244-293 | as written, a failure after the schema script leaves the marker in place without the data |
| `Bootstrap.DoDbSetupAsWritten` | ingest-orig/images/worker/radio_worker.py:203-303 | `do_db_setup` as written: skipped exactly when another session holds (0, 0), a no-op whenever the marker exists, loads only on a fresh database, never touches station locks, and a failure after the schema script leaves the marker |
| `Bootstrap.AsWrittenStrandsMarker` | ingest-orig/images/worker/radio_worker.py:64 | as written, one failed download strands the database: the marker exists without data, and every later bootstrap skips the load |
| `Worker.Disconnect` | ingest-orig/images/worker/radio_worker.py:156-165 | after `close`, the session holds no lock and every other session's locks are as they were |
| `Worker.Close` | ingest-orig/images/worker/radio_worker.py:156-168 | `close` clears the station id and stream URL, keeps the display name, and drops exactly the locks of its own session |
| `Worker.CloseIdempotent` | ingest-orig/images/worker/radio_worker.py:156-168 | closing twice is closing once |
| `Worker.ClaimThenCloseRestores` | ingest-orig/images/worker/radio_worker.py:147-168 | a claim followed by `close` ends the session: the claimed key goes, and so does every lock the session held before the claim, such as the bootstrap key (0, 0) |
| `Worker.ClaimThenCloseRestoresTable` | ingest-orig/images/worker/radio_worker.py:147-168 | for a session that held no lock, a claim followed by `close` gives back the lock table as it was before the claim |
| `Worker.Terminate` | ingest-orig/images/worker/radio_worker.py:23-29 | leaving the `with` block on an exception runs `close()` and then raises that exception: the session's locks are gone, every other session's lock stays with its holder, and no row changes |
| `Worker.Payload` | ingest-orig/images/worker/radio_worker.py:23-29 | a worker never returns; it raises a configuration error without touching the database, or else leaves holding no lock and leaves every lock of other sessions exactly as it was, neither dropping nor adding any |
| `Worker.ClaimAndIngest` | ingest-orig/images/worker/radio_worker.py:305-342 | after the bootstrap, the worker claims, looks up its station and ingests; it never returns, leaves holding no lock when it raises, keeps every lock of other sessions, and never changes the catalog |
| `Worker.SetupFailureLeavesMarker` | ingest-orig/images/worker/radio_worker.py:285-293 | a worker whose download fails after the schema script, on a fresh database, raises the setup failure, holds no lock, and leaves the marker without the data |
| `Worker.NothingClaimableKeepsSpinning` | ingest-orig/images/worker/radio_worker.py:312-317 | with bootstrap off (`create_schema` 0) and nothing claimable, the worker stays alive and changes nothing |
| `Worker.SetUpAndNothingClaimableKeepsSpinning` | ingest-orig/images/worker/radio_worker.py:338-342 | with bootstrap on, the schema in place and nothing claimable, the worker stays alive and its one change is the bootstrap lock (0, 0), which it holds unless another session does |
| `Pool.Spawn` | ingest-orig/images/worker/radio_pool.py:70-73 | the supervisor starts `n_tasks` workers, all with the same arguments |
| `Pool.TickFrom` | ingest-orig/images/worker/radio_pool.py:78-90 | the pass fails at the first slot that returned; otherwise it replaces exactly the slots that raised, in place |
| `Pool.TickOutcome` | ingest-orig/images/worker/radio_pool.py:78-90 | a tick is fatal exactly when some worker returned; otherwise it keeps the slot count and respawns exactly the finished workers |
| `Pool.SuperviseKeepsSlots` | ingest-orig/images/worker/radio_pool.py:75-90 | however the workers die, the supervisor keeps N slots with the same arguments |
| `Pool.SuperviseNeverFailsWithRealWorkers` | ingest-orig/images/worker/radio_pool.py:75-90 | with workers that only raise, the fatal branch is never taken |
| `Cluster.InitIsInv` | ingest-orig/images/worker/radio_worker.py:63-68 | a cluster with no sessions and no locks satisfies the lock invariant |
| `Cluster.InvGivesMutualExclusion` | ingest-orig/images/worker/radio_worker.py:76-145 | the invariant implies no two sessions hold one station, and at most one session is loading |
| `Cluster.SetupWork` | ingest-orig/images/worker/radio_worker.py:237-293 | the setup work is done exactly when the load succeeds; a failure before the schema script changes nothing in either mode; any failure changes nothing when transactional, and a failure after the schema script leaves the marker under autocommit |
| `Cluster.EndSetupKeepsInv` | ingest-orig/images/worker/radio_worker.py:237-293 | the end of a load, successful or not, in either setup mode, keeps the lock invariant |
| `Cluster.ClaimJobKeepsInv` | ingest-orig/images/worker/radio_worker.py:76-145 | a claim takes only a free key, so it keeps the lock invariant and no other holder loses its station |
| `Cluster.StepKeepsInv` | ingest-orig/images/worker/radio_worker.py:76-303 | in either setup mode, including autocommit as written, every atomic connect, gate, load, claim, close or crash keeps the lock invariant |
| `Cluster.RunKeepsInv` | ingest-orig/images/worker/radio_worker.py:76-303 | in either setup mode, every interleaving keeps mutual exclusion and loads the reference data at most once |
| `Cluster.TransactionalRunKeepsConsistent` | ingest-orig/images/worker/radio_worker.py:203-303 | with the corrected transactional load, every interleaving keeps the marker consistent with the data |
| `Cluster.AutocommitStrandsCluster` | ingest-orig/images/worker/radio_worker.py:64 | as written, one failed download strands the cluster: the next worker through the gate skips the load and goes on to claim jobs |
| `Cluster.ClaimStepTakesLeast` | ingest-orig/images/worker/radio_worker.py:76-145 | a claiming worker's step takes the least claimable id, or changes nothing when none is claimable |
| `Cluster.ReleaseFreesStation` | ingest-orig/images/worker/radio_worker.py:147-168 | after its holder closes or crashes, a station is unlocked and, if still under the threshold, claimable by any other session |
| `Cluster.TerminatePool` | ingest-orig/images/worker/radio_pool.py:43-52 | `close` swallows errors; unless termination itself fails, no worker session survives |
| `Cluster.TerminatedPoolHoldsNoLocks` | ingest-orig/images/worker/radio_pool.py:43-52 | after a clean shutdown, no advisory lock is left |
| `Scenarios.FailingStationIsRetired` | ingest-orig/images/worker/radio_worker.py:362-405 | under 'ignore' with threshold 3, three failures end the worker at the next check, and the station is no longer claimed |
| `Scenarios.TwoWorkersSplitTheJobs` | ingest-orig/images/worker/radio_worker.py:104-131 | two claiming workers on jobs {5, 9} hold 5 and 9 respectively |
| `Scenarios.CrashedHolderReleases` | ingest-orig/images/worker/radio_worker.py:84-91 | a job held by a crashed session is claimed by the next worker that tries |

## Left out

- Network and storage I/O are replaced by parameters:
  - the database connection and cursors;
  - `boto3` uploads and downloads;
  - `AudioStream`;
  - the tar extraction and CSV load.
  The stream and the upload are one `ChunkOutcome` per iteration. The
  whole setup work is one `SetupOutcome`.
- The random jitter and the `sleep` calls are left out. They affect
  timing, not state.
- Wall-clock time is an input: the microsecond timestamp of each chunk
  comes with its `ChunkOutcome`.
- Logging, `gc.collect()`, the exception message texts, and `run.py` are
  left out. The scrapers are not part of this model.
- Re-entrant advisory locks are not modelled. PostgreSQL counts nested
  acquisitions by one session. Here every session takes each key at most
  once, which is all this program does.
- A connection that fails to open is not modelled. `pyodbc.connect`
  failing is a constructor error the model does not distinguish.
- A `NULL` callsign or band is not modelled: the display name is always
  `callsign-band`.
- The foreign key from `app.chunks` to `app.jobs` is not modelled. The
  schema script is not part of this model.
- `Ingest.Run`: the database statements inside the loop never fail in
  this model. In the code, three of them can raise:
  - the stop-condition query (`radio_worker.py` line 357);
  - the failure `UPDATE` inside the `except` (lines 388-398);
  - the chunk `INSERT` in the `else` branch (lines 408-414).
  The `INSERT` is outside the `except`. If it fails, the worker ends under
  either policy, `ignore` included, and the uploaded object is left with
  no record. So the four exit reasons `Ingest.Run` states hold only for a
  store whose statements succeed.
- Real parallelism is not modelled. `Cluster` interleaves atomic database
  actions. Within one worker, `Payload` and `Ingest.Run` assume no other
  session writes meanwhile. The Cluster's `EditJobs` action stands for
  concurrent row changes.
- Unbounded runs are not modelled. A finite oracle sequence that runs out
  leaves the worker `Running` (or spinning, in `Claim.AcquireTask` and
  `Worker.Payload`). The supervisor is likewise observed for finitely many
  polls.
- `Worker.Payload`: it states the exit reasons and the lock effects of one
  worker, not the exact row changes. Those are stated by `Ingest.Run`,
  `Ingest.ApplyOutcome` and the lemmas about them.
- `Cluster.TerminatePool`: `pool.terminate()` raising leaves the cluster as
  it was. Which workers a failed termination still kills is not modelled.
- `Cluster.Step`: a `Crash` of a worker that is `Loading` drops its locks
  and leaves the catalog as it was, in both setup modes. Under autocommit
  the code may already have committed the schema script before the crash
  and stranded the marker; that path is modelled only as a failed load
  (`EndSetup` with `FailedAfterSchema`).
- `Pool.Observe`: a worker process killed outright (SIGKILL, out of
  memory) never makes its `AsyncResult` ready, so its slot stays running
  and is never refilled, as in the code; `Pool.SuperviseKeepsSlots` keeps
  such a slot but does not respawn it.
- `Pool.TickFrom` and the rest of `Pool` do not model `maxtasksperchild=1`
  process recycling. It does not change which slots are respawned.

## Findings

| source | as written | input that shows it | evidently intended | confidence | as-written member | corrected member |
|---|---|---|---|---|---|---|
| ingest-orig/images/worker/radio_worker.py:64 | the connection is in autocommit mode, so the schema script (line 245) commits at once and the `rollback()` at line 289 undoes nothing | a fresh database where the archive download at line 255 raises: the `app` schema now exists without station data, and every later bootstrap sees the marker and skips the load | the load is one transaction: a failure leaves no marker, so a later worker retries the bootstrap | medium; the schema script is not part of this model; not executed | `Bootstrap.AsWrittenStrandsMarker` | `Bootstrap.DoDbSetupKeepsConsistent` |

=== FILE: bootstrap.dfy ===
/** The bootstrap-once gate of `RadioWorker.do_db_setup`: only the session
    that wins the reserved two-argument advisory lock (0, 0) may load the
    reference data, and it first re-checks whether the `app` schema, the
    completion marker, already exists.

    The schema script, archive download and CSV load are one oracle value,
    `SetupOutcome`. */
module Bootstrap {
  import opened JobStore

  /** The reference data and its completion marker: `schemaExists` is the
      `app` schema the gate looks for; `loaded` says the station rows were
      all loaded. */
  datatype Catalog = Catalog(schemaExists: bool, loaded: bool, stations: map<StationId, StationRef>)

  /** The marker is trustworthy: a catalog whose schema exists is loaded. */
  predicate Consistent(cat: Catalog)
  {
    cat.schemaExists ==> cat.loaded
  }

  /** What the setup work did once the gate let this worker through. */
  datatype SetupOutcome =
    | Loaded(rows: map<StationId, StationRef>)
    | FailedBeforeSchema(error: string)   // before the schema script ran (e.g. no `db_setup`)
    | FailedAfterSchema(error: string)    // the schema script ran; download or load failed

  /** The outcome of the gate itself. */
  datatype Gate =
    | Lost           // another session holds (0, 0): skip setup
    | AlreadySetUp   // won the lock, but the marker exists: nothing to do
    | Proceed        // won the lock and the marker is absent

  /** What `do_db_setup` did, as its caller sees it. */
  datatype SetupResult = Skipped | NoOp | Done | Failed(error: string)

  /** Try the reserved key, then re-check the marker. The lock, once won,
      is kept: `do_db_setup` never unlocks it, so it lasts until the
      session ends. */
  function EnterGate(locks: Locks, me: SessionId, cat: Catalog): (r: (Gate, Locks))
    ensures r.0 == Lost <==> HeldByOther(locks, SetupKey, me)
    ensures r.0 == Lost ==> r.1 == locks
    ensures r.0 != Lost ==> r.1 == locks[SetupKey := me]
    ensures r.0 == Proceed <==> !HeldByOther(locks, SetupKey, me) && !cat.schemaExists
  {
    var (won, locks') := TryLock(locks, SetupKey, me);
    if !won then (Lost, locks)
    else if cat.schemaExists then (AlreadySetUp, locks')
    else (Proceed, locks')
  }

  /** The setup work as a single transaction: a failure leaves the catalog
      as it was. */
  function FinishSetup(cat: Catalog, out: SetupOutcome): (r: (SetupResult, Catalog))
    ensures r.0 == Done <==> out.Loaded?
    ensures out.Loaded? ==> r.1 == Catalog(true, true, out.rows)
    ensures !out.Loaded? ==> r.1 == cat && r.0 == Failed(out.error)
  {
    match out
    case Loaded(rows) => (Done, Catalog(true, true, rows))
    case FailedBeforeSchema(e) => (Failed(e), cat)
    case FailedAfterSchema(e) => (Failed(e), cat)
  }

  /** `do_db_setup` with transactional setup. */
  function DoDbSetup(locks: Locks, me: SessionId, cat: Catalog, out: SetupOutcome): (r: (SetupResult, Locks, Catalog))
    ensures r.0 == Skipped <==> HeldByOther(locks, SetupKey, me)
    ensures r.0 == Skipped ==> r.1 == locks && r.2 == cat
    ensures r.0 != Skipped ==> r.1 == locks[SetupKey := me]
    ensures cat.schemaExists && r.0 != Skipped ==> r.0 == NoOp && r.2 == cat
    ensures r.0 == Done <==> !HeldByOther(locks, SetupKey, me) && !cat.schemaExists && out.Loaded?
    ensures r.0 == Done ==> r.2 == Catalog(true, true, out.rows)
    ensures r.0 == NoOp <==> !HeldByOther(locks, SetupKey, me) && cat.schemaExists
    ensures r.0.Failed? <==> !HeldByOther(locks, SetupKey, me) && !cat.schemaExists && !out.Loaded?
    ensures r.0.Failed? ==> r.2 == cat
    ensures forall s :: (Single(s) in r.1 <==> Single(s) in locks)
    ensures forall s :: Single(s) in r.1 ==> r.1[Single(s)] == locks[Single(s)]
  {
    var (gate, locks') := EnterGate(locks, me, cat);
    match gate
    case Lost => (Skipped, locks, cat)
    case AlreadySetUp => (NoOp, locks', cat)
    case Proceed =>
      var (res, cat') := FinishSetup(cat, out);
      (res, locks', cat')
  }

  /** Whatever happens, a consistent catalog stays consistent. */
  lemma DoDbSetupKeepsConsistent(locks: Locks, me: SessionId, cat: Catalog, out: SetupOutcome)
    requires Consistent(cat)
    ensures Consistent(DoDbSetup(locks, me, cat, out).2)
  {
  }

  /** The setup work as the source runs it: the connection is in autocommit
      mode, so the schema script is committed as soon as it runs, and the
      `rollback()` after a later failure undoes nothing. */
  function FinishSetupAsWritten(cat: Catalog, out: SetupOutcome): (r: (SetupResult, Catalog))
    ensures r.0 == Done <==> out.Loaded?
    ensures out.Loaded? ==> r.1 == Catalog(true, true, out.rows)
    ensures out.FailedBeforeSchema? ==> r.1 == cat && r.0 == Failed(out.error)
    ensures out.FailedAfterSchema? ==> r.1.schemaExists && r.1.loaded == cat.loaded && r.0 == Failed(out.error)
  {
    match out
    case Loaded(rows) => (Done, Catalog(true, true, rows))
    case FailedBeforeSchema(e) => (Failed(e), cat)
    case FailedAfterSchema(e) => (Failed(e), cat.(schemaExists := true))
  }

  function DoDbSetupAsWritten(locks: Locks, me: SessionId, cat: Catalog, out: SetupOutcome)
    : (r: (SetupResult, Locks, Catalog))
    ensures r.0 == Skipped <==> HeldByOther(locks, SetupKey, me)
    ensures r.0 == Skipped ==> r.1 == locks && r.2 == cat
    ensures r.0 != Skipped ==> r.1 == locks[SetupKey := me]
    ensures cat.schemaExists && r.0 != Skipped ==> r.0 == NoOp && r.2 == cat
    ensures r.0 == Done <==> !HeldByOther(locks, SetupKey, me) && !cat.schemaExists && out.Loaded?
    ensures r.0 == NoOp <==> !HeldByOther(locks, SetupKey, me) && cat.schemaExists
    ensures r.0.Failed? <==> !HeldByOther(locks, SetupKey, me) && !cat.schemaExists && !out.Loaded?
    ensures r.0 == Done ==> r.2 == Catalog(true, true, out.rows)
    ensures r.0.Failed? && out.FailedBeforeSchema? ==> r.2 == cat
    ensures r.0.Failed? && out.FailedAfterSchema? ==> r.2.schemaExists && r.2.loaded == cat.loaded
    ensures forall s :: (Single(s) in r.1 <==> Single(s) in locks)
    ensures forall s :: Single(s) in r.1 ==> r.1[Single(s)] == locks[Single(s)]
  {
    var (gate, locks') := EnterGate(locks, me, cat);
    match gate
    case Lost => (Skipped, locks, cat)
    case AlreadySetUp => (NoOp, locks', cat)
    case Proceed =>
      var (res, cat') := FinishSetupAsWritten(cat, out);
      (res, locks', cat')
  }

  /** The discrepancy: on a fresh database, a download failure after the
      schema script leaves the marker without the data, and every later
      bootstrap, by any session, then skips the load for good. */
  lemma AsWrittenStrandsMarker(me: SessionId, later: SessionId, locks2: Locks, out2: SetupOutcome)
    ensures var cat1 := DoDbSetupAsWritten(map[], me, Catalog(false, false, map[]), FailedAfterSchema("download failed")).2;
      && !Consistent(cat1)
      && DoDbSetupAsWritten(locks2, later, cat1, out2).2 == cat1
  {
  }
}

=== FILE: claim.dfy ===
/** The claim protocol of `RadioWorker.lock_task` and the polling loop of
    `RadioWorker.acquire_task`.

    The query is a recursive CTE ported from the `que` job queue: it takes
    the eligible job with the least `station_id`, tries the advisory lock
    on it, and then repeatedly takes the eligible job with the least
    `station_id` above the previous one. The outer `where locked limit 1`
    stops the (lazily evaluated) recursion at the first lock won. */
module Claim {
  import opened Outcomes
  import opened JobStore
  import opened Ordering
  import opened LeastElement

  /** The eligible jobs whose `station_id` lies above `after`
      (`j.station_id > job_locks.station_id`); all of them when `after`
      is `None` (the non-recursive first term). */
  function EligibleAfter(jobs: Jobs, t: Threshold, after: Option<StationId>): (c: set<StationId>)
    ensures forall k :: k in c <==> k in jobs && Eligible(t, jobs[k]) && (after.None? || after.value < k)
  {
    set k | k in jobs && Eligible(t, jobs[k]) && (after.None? || after.value < k)
  }

  /** `me` could lock job `k` now: the row exists, is under the failure
      threshold and no other session holds its lock. */
  predicate Claimable(jobs: Jobs, t: Threshold, locks: Locks, me: SessionId, k: StationId)
  {
    k in jobs && Eligible(t, jobs[k]) && !HeldByOther(locks, Single(k), me)
  }

  /** Reference definition of the claim: `k` is the least claimable id. */
  predicate LeastClaimable(jobs: Jobs, t: Threshold, locks: Locks, me: SessionId, k: StationId)
  {
    Claimable(jobs, t, locks, me, k)
    && forall j :: j in jobs && j < k ==> !Claimable(jobs, t, locks, me, j)
  }

  /** The recursive part of the query, resumed above `after`. It returns the
      id whose lock it won (if any) and the lock table afterwards. */
  function ScanFrom(jobs: Jobs, t: Threshold, locks: Locks, me: SessionId, after: Option<StationId>)
    : (r: (Option<StationId>, Locks))
    decreases |EligibleAfter(jobs, t, after)|
    ensures r.0.Some? ==>
      var k := r.0.value;
      && Claimable(jobs, t, locks, me, k)
      && (after.None? || after.value < k)
      && (forall j :: j in jobs && (after.None? || after.value < j) && j < k ==> !Claimable(jobs, t, locks, me, j))
      && r.1 == locks[Single(k) := me]
    ensures r.0.None? ==>
      && r.1 == locks
      && forall j :: j in jobs && (after.None? || after.value < j) ==> !Claimable(jobs, t, locks, me, j)
  {
    var candidates := EligibleAfter(jobs, t, after);
    if candidates == {} then (None, locks)
    else
      var k := Least(candidates);
      var (won, locks') := TryLock(locks, Single(k), me);
      if won then (Some(k), locks')
      else
        assert EligibleAfter(jobs, t, Some(k)) <= candidates - {k};
        assert |candidates - {k}| == |candidates| - 1;
        SubsetNoLarger(EligibleAfter(jobs, t, Some(k)), candidates - {k});
        ScanFrom(jobs, t, locks, me, Some(k))
  }

  /** `lock_task`: the whole query, from the least eligible id upwards. */
  function LockTask(jobs: Jobs, t: Threshold, locks: Locks, me: SessionId): (r: (Option<StationId>, Locks))
  {
    ScanFrom(jobs, t, locks, me, None)
  }

  /** The claim returns exactly the least claimable id, and `None` exactly
      when no job is claimable. */
  lemma LockTaskIsLeastClaimable(jobs: Jobs, t: Threshold, locks: Locks, me: SessionId, k: StationId)
    ensures LockTask(jobs, t, locks, me).0 == Some(k) <==> LeastClaimable(jobs, t, locks, me, k)
    ensures LockTask(jobs, t, locks, me).0 == None <==> forall j :: j in jobs ==> !Claimable(jobs, t, locks, me, j)
  {
  }

  /** Only the returned id is locked, and by the caller: every other
      entry of the lock table, including the contended ids skipped on the
      way, keeps its owner; a `None` result changes nothing. */
  lemma LockTaskLocksOnlyResult(jobs: Jobs, t: Threshold, locks: Locks, me: SessionId)
    ensures var r := LockTask(jobs, t, locks, me);
      && (r.0.None? ==> r.1 == locks)
      && (r.0.Some? ==> r.1.Keys == locks.Keys + {Single(r.0.value)} && r.1[Single(r.0.value)] == me)
      && (forall key :: key in locks && (r.0.None? || key != Single(r.0.value)) ==> key in r.1 && r.1[key] == locks[key])
  {
  }

  /** Threshold exclusion: with the threshold enabled, a job whose
      `error_count` reached it is never returned, even when unlocked. */
  lemma ThresholdExclusion(jobs: Jobs, n: int, locks: Locks, me: SessionId, k: StationId)
    requires k in jobs && jobs[k].errorCount >= n
    ensures LockTask(jobs, Limit(n), locks, me).0 != Some(k)
  {
  }

  /** A contended id is skipped, not waited on: if the least eligible id is
      held by another session and a higher eligible one is free, the claim
      still succeeds. */
  lemma ContendedIsSkipped(jobs: Jobs, t: Threshold, locks: Locks, me: SessionId, k: StationId)
    requires Claimable(jobs, t, locks, me, k)
    ensures LockTask(jobs, t, locks, me).0.Some?
    ensures LockTask(jobs, t, locks, me).0.value <= k
  {
  }

  /** `acquire_task`'s spin loop. `polls[i]` is the job and lock tables as
      the i-th attempt sees them (other workers change them between
      attempts); the loop stops at the first attempt whose claim succeeds.
      When every observed attempt finds nothing, the worker is still
      spinning, `claimed` is `None`, and `locks` is the lock table as the
      last attempt left it (empty when there were no attempts). */
  method AcquireTask(polls: seq<(Jobs, Locks)>, t: Threshold, me: SessionId)
    returns (claimed: Option<StationId>, locks: Locks, attempts: nat)
    ensures attempts <= |polls|
    ensures forall i :: 0 <= i < attempts - 1 ==> LockTask(polls[i].0, t, polls[i].1, me).0.None?
    ensures claimed.Some? ==>
      && attempts >= 1
      && LeastClaimable(polls[attempts - 1].0, t, polls[attempts - 1].1, me, claimed.value)
      && locks == polls[attempts - 1].1[Single(claimed.value) := me]
    ensures claimed.None? ==>
      && attempts == |polls|
      && (|polls| > 0 ==> locks == polls[|polls| - 1].1)
      && forall i :: 0 <= i < |polls| ==> forall j :: j in polls[i].0 ==> !Claimable(polls[i].0, t, polls[i].1, me, j)
  {
    claimed, locks, attempts := None, map[], 0;
    while attempts < |polls|
      invariant attempts <= |polls|
      invariant forall i :: 0 <= i < attempts ==> LockTask(polls[i].0, t, polls[i].1, me).0.None?
      invariant claimed.None?
      invariant attempts > 0 ==> locks == polls[attempts - 1].1
    {
      var (jobs, current) := polls[attempts];
      var r := LockTask(jobs, t, current, me);
      attempts := attempts + 1;
      if r.0.Some? {
        LockTaskIsLeastClaimable(jobs, t, current, me, r.0.value);
        claimed, locks := r.0, r.1;
        return;
      }
      locks := current;
    }
    forall i | 0 <= i < |polls|
      ensures forall j :: j in polls[i].0 ==> !Claimable(polls[i].0, t, polls[i].1, me, j)
    {
      LockTaskIsLeastClaimable(polls[i].0, t, polls[i].1, me, 0);
    }
  }
}

=== FILE: cluster.dfy ===
/** Many workers against one job store. Each worker's steps that touch the
    shared lock table (connect, the bootstrap gate, a claim, close, a crash)
    are atomic actions, and any interleaving of them is a run. The model
    proves that two live sessions never hold the same `station_id`, and
    that the reference data is loaded at most once.

    The setup work of a worker that passes the bootstrap gate runs in one
    of two modes: `Autocommit`, as the code runs it, or `Transactional`,
    as it is evidently meant. Mutual exclusion and the single load hold in
    both; a catalog whose marker implies its data is kept only by the
    transactional mode. */
module Cluster {
  import opened Outcomes
  import opened JobStore
  import opened Claim
  import opened Bootstrap
  import opened Worker

  /** Where a live worker is in `run`. */
  datatype Phase =
    | Starting                    // connected; bootstrap not yet attempted
    | Loading                     // won (0, 0) on an empty catalog; loading
    | Claiming                    // in `acquire_task`
    | Holding(station: StationId) // claimed `station`; ingesting it

  datatype ClusterState = ClusterState(
    jobs: Jobs,
    locks: Locks,
    catalog: Catalog,
    live: map<SessionId, Phase>,
    loads: nat)   // completed reference-data loads

  datatype Action =
    | Connect(w: SessionId)                         // a worker process starts
    | SkipSetup(w: SessionId)                       // `create_schema` is off
    | BeginSetup(w: SessionId)                      // the gate of `do_db_setup`
    | EndSetup(w: SessionId, out: SetupOutcome)     // the load ends
    | ClaimJob(w: SessionId)                        // one `lock_task`
    | CloseSession(w: SessionId)                    // `close()` on any exit path
    | Crash(w: SessionId)                           // the process dies outright
    | EditJobs(jobs: Jobs)                          // rows change: producers, or the ingest bookkeeping

  /** How the setup work commits. */
  datatype SetupMode = Autocommit | Transactional

  /** The setup work of a worker that passed the gate, in `mode`. */
  function SetupWork(mode: SetupMode, cat: Catalog, out: SetupOutcome): (r: (SetupResult, Catalog))
    ensures r.0 == Done <==> out.Loaded?
    ensures out.Loaded? ==> r.1 == Catalog(true, true, out.rows)
    ensures cat.schemaExists ==> r.1.schemaExists
    ensures mode == Transactional && !out.Loaded? ==> r.1 == cat
    ensures out.FailedBeforeSchema? ==> r.1 == cat
    ensures mode == Autocommit && out.FailedAfterSchema? ==> r.1.schemaExists && r.1.loaded == cat.loaded
  {
    match mode
    case Autocommit => FinishSetupAsWritten(cat, out)
    case Transactional => FinishSetup(cat, out)
  }

  /** One atomic action. An action that does not apply in the worker's
      current phase changes nothing. */
  function Step(c: ClusterState, mode: SetupMode, t: Threshold, a: Action): ClusterState
  {
    match a
    case Connect(w) =>
      if w in c.live then c else c.(live := c.live[w := Starting])
    case SkipSetup(w) =>
      if w in c.live && c.live[w] == Starting then c.(live := c.live[w := Claiming]) else c
    case BeginSetup(w) =>
      if w in c.live && c.live[w] == Starting then
        var (gate, locks') := EnterGate(c.locks, w, c.catalog);
        c.(locks := locks', live := c.live[w := if gate == Proceed then Loading else Claiming])
      else c
    case EndSetup(w, out) =>
      if w in c.live && c.live[w] == Loading then
        var (res, catalog') := SetupWork(mode, c.catalog, out);
        if res == Done then
          c.(catalog := catalog', loads := c.loads + 1, live := c.live[w := Claiming])
        else
          c.(catalog := catalog', locks := Disconnect(c.locks, w, None), live := c.live - {w})
      else c
    case ClaimJob(w) =>
      if w in c.live && c.live[w] == Claiming then
        var (claimed, locks') := LockTask(c.jobs, t, c.locks, w);
        match claimed
        case None => c
        case Some(k) => c.(locks := locks', live := c.live[w := Holding(k)])
      else c
    case CloseSession(w) =>
      if w in c.live then
        var held := if c.live[w].Holding? then Some(c.live[w].station) else None;
        c.(locks := Disconnect(c.locks, w, held), live := c.live - {w})
      else c
    case Crash(w) =>
      if w in c.live then c.(locks := EndSession(c.locks, w), live := c.live - {w}) else c
    case EditJobs(jobs) =>
      c.(jobs := jobs)
  }

  /** A run: the actions in order. */
  function Steps(c: ClusterState, mode: SetupMode, t: Threshold, acts: seq<Action>): ClusterState
    decreases |acts|
  {
    if |acts| == 0 then c else Steps(Step(c, mode, t, acts[0]), mode, t, acts[1..])
  }

  /** No worker is running yet, no lock is held, nothing has been loaded. */
  predicate Init(c: ClusterState)
  {
    c.live == map[] && c.locks == map[] && c.loads == 0
  }

  /** The invariant the lock table keeps with the workers' phases. */
  predicate Inv(c: ClusterState)
  {
    && (forall k :: k in c.locks ==> c.locks[k] in c.live)
    && (forall w :: w in c.live && c.live[w].Holding? ==>
          Single(c.live[w].station) in c.locks && c.locks[Single(c.live[w].station)] == w)
    && (forall w :: w in c.live && c.live[w] == Loading ==>
          SetupKey in c.locks && c.locks[SetupKey] == w && !c.catalog.schemaExists)
    && c.loads <= 1
    && (c.loads == 1 ==> c.catalog.schemaExists)
  }

  /** Two live workers never hold the same station. */
  predicate MutualExclusion(c: ClusterState)
  {
    forall w1, w2 :: w1 in c.live && w2 in c.live && w1 != w2 && c.live[w1].Holding? && c.live[w2].Holding? ==>
      c.live[w1].station != c.live[w2].station
  }

  lemma InitIsInv(c: ClusterState)
    requires Init(c)
    ensures Inv(c)
  {
  }

  lemma InvGivesMutualExclusion(c: ClusterState)
    requires Inv(c)
    ensures MutualExclusion(c)
    ensures forall w1, w2 :: w1 in c.live && w2 in c.live && c.live[w1] == Loading && c.live[w2] == Loading ==> w1 == w2
  {
  }

  /** The end of a worker's load keeps the invariant: on success the
      worker goes on to claim, otherwise it leaves and drops its locks. */
  lemma EndSetupKeepsInv(c: ClusterState, mode: SetupMode, t: Threshold, w: SessionId, out: SetupOutcome)
    requires Inv(c)
    ensures Inv(Step(c, mode, t, EndSetup(w, out)))
  {
    var c' := Step(c, mode, t, EndSetup(w, out));
    if w in c.live && c.live[w] == Loading {
      var (res, catalog') := SetupWork(mode, c.catalog, out);
      if res != Done {
        assert forall v :: v in c'.live ==> v in c.live && v != w && c'.live[v] == c.live[v];
      }
    }
  }

  /** A claim keeps the invariant: the claimed key was free, so no other
      holder loses its station. */
  lemma ClaimJobKeepsInv(c: ClusterState, mode: SetupMode, t: Threshold, w: SessionId)
    requires Inv(c)
    ensures Inv(Step(c, mode, t, ClaimJob(w)))
  {
    var c' := Step(c, mode, t, ClaimJob(w));
    if w in c.live && c.live[w] == Claiming {
      var (claimed, locks') := LockTask(c.jobs, t, c.locks, w);
      if claimed.Some? {
        var k := claimed.value;
        forall v | v in c'.live && c'.live[v].Holding?
          ensures Single(c'.live[v].station) in c'.locks && c'.locks[Single(c'.live[v].station)] == v
        {
          if v != w {
            assert c.live[v] == c'.live[v];
            assert c'.live[v].station != k;
          }
        }
      }
    }
  }

  lemma {:induction false} StepKeepsInv(c: ClusterState, mode: SetupMode, t: Threshold, a: Action)
    requires Inv(c)
    ensures Inv(Step(c, mode, t, a))
  {
    var c' := Step(c, mode, t, a);
    match a
    case Connect(w) =>
    case SkipSetup(w) =>
    case BeginSetup(w) =>
    case EndSetup(w, out) =>
      EndSetupKeepsInv(c, mode, t, w, out);
    case ClaimJob(w) =>
      ClaimJobKeepsInv(c, mode, t, w);
    case CloseSession(w) =>
      if w in c.live {
        assert forall v :: v in c'.live ==> v in c.live && v != w && c'.live[v] == c.live[v];
      }
    case Crash(w) =>
      if w in c.live {
        assert forall v :: v in c'.live ==> v in c.live && v != w && c'.live[v] == c.live[v];
      }
    case EditJobs(jobs) =>
  }

  /** Every interleaving keeps the invariant, so every reachable state
      satisfies mutual exclusion and has loaded the reference data at most
      once, with at most one session loading at any time. */
  lemma {:induction false} RunKeepsInv(c: ClusterState, mode: SetupMode, t: Threshold, acts: seq<Action>)
    requires Inv(c)
    ensures Inv(Steps(c, mode, t, acts))
    ensures MutualExclusion(Steps(c, mode, t, acts))
    ensures Steps(c, mode, t, acts).loads <= 1
    decreases |acts|
  {
    if |acts| == 0 {
      InvGivesMutualExclusion(c);
    } else {
      StepKeepsInv(c, mode, t, acts[0]);
      RunKeepsInv(Step(c, mode, t, acts[0]), mode, t, acts[1..]);
    }
  }

  /** With a transactional load, every interleaving keeps the marker
      trustworthy: the `app` schema exists only with the station data. */
  lemma {:induction false} TransactionalRunKeepsConsistent(c: ClusterState, t: Threshold, acts: seq<Action>)
    requires Consistent(c.catalog)
    ensures Consistent(Steps(c, Transactional, t, acts).catalog)
    decreases |acts|
  {
    if |acts| > 0 {
      var c' := Step(c, Transactional, t, acts[0]);
      assert Consistent(c'.catalog);
      TransactionalRunKeepsConsistent(c', t, acts[1..]);
    }
  }

  /** As the code runs it, one failed download on a fresh database strands
      the cluster: the marker exists without the data, the failed worker is
      gone, and the next worker through the gate skips the load and goes on
      to claim jobs, so the data is never loaded. */
  lemma AutocommitStrandsCluster(t: Threshold, jobs: Jobs)
    ensures var c0 := ClusterState(jobs, map[], Catalog(false, false, map[]), map[], 0);
      var c1 := Step(Step(c0, Autocommit, t, Connect(1)), Autocommit, t, BeginSetup(1));
      var c2 := Step(c1, Autocommit, t, EndSetup(1, FailedAfterSchema("download failed")));
      var c3 := Step(Step(c2, Autocommit, t, Connect(2)), Autocommit, t, BeginSetup(2));
      && c1.live == map[1 := Loading]
      && !Consistent(c2.catalog) && c2.live == map[] && c2.locks == map[]
      && c3.live == map[2 := Claiming] && c3.catalog == c2.catalog && c3.loads == 0
  {
  }

  /** A claiming worker's `ClaimJob` takes the least claimable id and
      nothing else, or, when nothing is claimable, changes nothing. */
  lemma ClaimStepTakesLeast(c: ClusterState, mode: SetupMode, t: Threshold, w: SessionId, k: StationId)
    requires w in c.live && c.live[w] == Claiming
    ensures LeastClaimable(c.jobs, t, c.locks, w, k) ==>
      Step(c, mode, t, ClaimJob(w)) == c.(locks := c.locks[Single(k) := w], live := c.live[w := Holding(k)])
    ensures (forall j :: j in c.jobs ==> !Claimable(c.jobs, t, c.locks, w, j)) ==> Step(c, mode, t, ClaimJob(w)) == c
  {
    LockTaskIsLeastClaimable(c.jobs, t, c.locks, w, k);
  }

  /** A run of two actions is one action after the other. */
  lemma StepsTwo(c: ClusterState, mode: SetupMode, t: Threshold, a: Action, b: Action)
    ensures Steps(c, mode, t, [a, b]) == Step(Step(c, mode, t, a), mode, t, b)
  {
    var c1 := Step(c, mode, t, a);
    assert [a, b][1..] == [b];
    assert Steps(c, mode, t, [a, b]) == Steps(c1, mode, t, [b]);
    assert [b][1..] == [];
    assert Steps(c1, mode, t, [b]) == Steps(Step(c1, mode, t, b), mode, t, []);
  }

  /** Lock release visibility: once the worker holding station X closes or
      crashes, X is free, and any other claiming worker that finds no
      smaller claimable id gets X if it is still under the threshold. */
  lemma ReleaseFreesStation(c: ClusterState, mode: SetupMode, t: Threshold, w: SessionId, other: SessionId)
    requires Inv(c)
    requires w in c.live && c.live[w].Holding?
    requires other != w
    ensures var x := c.live[w].station;
      && Single(x) !in Step(c, mode, t, CloseSession(w)).locks
      && Single(x) !in Step(c, mode, t, Crash(w)).locks
      && (x in c.jobs && Eligible(t, c.jobs[x]) ==>
            Claimable(c.jobs, t, Step(c, mode, t, CloseSession(w)).locks, other, x)
            && Claimable(c.jobs, t, Step(c, mode, t, Crash(w)).locks, other, x))
  {
    var x := c.live[w].station;
    assert forall v :: v in c.live && v != w && c.live[v].Holding? ==> c.live[v].station != x;
  }

  /** `RadioPool.close()`: `db.close()` and `pool.terminate()`, each in its
      own `try`, so an error closing the database does not stop the
      termination, and no error escapes. Terminating kills every worker
      process, and the server ends their sessions. Whether `db.close()`
      raised makes no difference, so `dbCloseRaises` is deliberately
      unused: it only records that the error is swallowed. */
  function TerminatePool(c: ClusterState, dbCloseRaises: bool, terminateRaises: bool): (r: ClusterState)
    ensures !terminateRaises ==> r.live == map[]
    ensures !terminateRaises ==> forall k :: k in r.locks <==> k in c.locks && c.locks[k] !in c.live
    ensures terminateRaises ==> r == c
  {
    if terminateRaises then c
    else c.(locks := map k | k in c.locks && c.locks[k] !in c.live :: c.locks[k], live := map[])
  }

  /** After the supervisor shuts down cleanly, no advisory lock is left. */
  lemma TerminatedPoolHoldsNoLocks(c: ClusterState, dbCloseRaises: bool)
    requires Inv(c)
    ensures TerminatePool(c, dbCloseRaises, false).locks == map[]
    ensures Inv(TerminatePool(c, dbCloseRaises, false))
  {
  }
}

=== FILE: config.dfy ===
/** Constructor validation of `RadioWorker(**kwargs)` and
    `RadioPool(**kwargs)`: required keys, defaults, and the errors raised. */
module Config {
  import opened Outcomes
  import opened JobStore

  /** `chunk_error_behavior`. */
  datatype Policy = Exit | Ignore

  /** The `db_setup` dictionary: where the bootstrap archive lives and the
      schema script to run. */
  datatype DbSetup = DbSetup(sourceBucket: string, sourceKey: string, schemaSql: string)

  /** The keyword arguments of `RadioWorker(**kwargs)`. `None` marks a key
      that was not passed; `extra` names every other key passed.
      `chunkErrorThreshold == Some(Disabled)` is an explicit `None`.
      `dbSetup` is `None` both when absent and when passed as `None`. */
  datatype WorkerArgs = WorkerArgs(
    s3Bucket: Option<string>,
    dsn: Option<string>,
    s3Prefix: Option<string>,
    chunkErrorBehavior: Option<string>,
    chunkErrorThreshold: Option<Threshold>,
    chunkSize: Option<int>,
    pollInterval: Option<int>,
    createSchema: Option<int>,
    dbSetup: Option<DbSetup>,
    extra: set<string>)

  /** A constructed worker's settings. */
  datatype WorkerConfig = WorkerConfig(
    dsn: string,
    s3Bucket: string,
    s3Prefix: string,
    policy: Policy,
    threshold: Threshold,
    chunkSize: int,
    pollInterval: int,
    createSchema: int,
    dbSetup: Option<DbSetup>)

  /** The errors the constructors raise. */
  datatype ConfigError =
    | MissingBucket                       // ValueError: no `s3_bucket`
    | UnexpectedArgs(names: set<string>)  // TypeError from `object.__init__(**kwargs)`
    | BadPolicy(value: string)            // ValueError: neither 'exit' nor 'ignore'
    | BadPoolSize(n: int)                 // ValueError from `multiprocessing.Pool(n)` with n < 1

  const DefaultDsn: string := "Database"
  const DefaultPrefix: string := ""
  const DefaultBehavior: string := "ignore"
  const DefaultThreshold: Threshold := Limit(10)
  const DefaultChunkSize: int := 5 * 1048576
  const DefaultPollInterval: int := 300
  const DefaultCreateSchema: int := 1
  const DefaultTasks: int := 10

  function GetOr<T>(o: Option<T>, default: T): T
  {
    match o
    case Some(v) => v
    case None => default
  }

  /** The policy named by a `chunk_error_behavior` string, if any. */
  function ParsePolicy(s: string): (p: Option<Policy>)
    ensures p == Some(Exit) <==> s == "exit"
    ensures p == Some(Ignore) <==> s == "ignore"
    ensures p.None? <==> s != "exit" && s != "ignore"
  {
    if s == "exit" then Some(Exit)
    else if s == "ignore" then Some(Ignore)
    else None
  }

  /** `RadioWorker.__init__` up to opening the database connection. The
      checks run in source order: the bucket, then leftover keys, then the
      policy string. */
  function NewWorker(a: WorkerArgs): (r: Result<WorkerConfig, ConfigError>)
    ensures r == Err(MissingBucket) <==> a.s3Bucket.None?
    ensures r.Err? && r.error.UnexpectedArgs? <==> a.s3Bucket.Some? && a.extra != {}
    ensures r.Ok? <==>
      a.s3Bucket.Some? && a.extra == {} && ParsePolicy(GetOr(a.chunkErrorBehavior, DefaultBehavior)).Some?
    ensures r.Err? && !r.error.MissingBucket? && !r.error.UnexpectedArgs? ==>
      r == Err(BadPolicy(GetOr(a.chunkErrorBehavior, DefaultBehavior)))
    ensures r.Ok? ==>
      && r.value.s3Bucket == a.s3Bucket.value
      && (r.value.policy == Exit <==> a.chunkErrorBehavior == Some("exit"))
      && (a.chunkErrorThreshold.None? ==> r.value.threshold == DefaultThreshold)
      && (a.chunkErrorThreshold.Some? ==> r.value.threshold == a.chunkErrorThreshold.value)
      && r.value.dsn == GetOr(a.dsn, DefaultDsn)
      && r.value.s3Prefix == GetOr(a.s3Prefix, DefaultPrefix)
      && r.value.chunkSize == GetOr(a.chunkSize, DefaultChunkSize)
      && r.value.pollInterval == GetOr(a.pollInterval, DefaultPollInterval)
      && r.value.createSchema == GetOr(a.createSchema, DefaultCreateSchema)
      && r.value.dbSetup == a.dbSetup
  {
    if a.s3Bucket.None? then Err(MissingBucket)
    else if a.extra != {} then Err(UnexpectedArgs(a.extra))
    else
      var behavior := GetOr(a.chunkErrorBehavior, DefaultBehavior);
      match ParsePolicy(behavior)
      case None => Err(BadPolicy(behavior))
      case Some(policy) =>
        Ok(WorkerConfig(
          GetOr(a.dsn, DefaultDsn),
          a.s3Bucket.value,
          GetOr(a.s3Prefix, DefaultPrefix),
          policy,
          GetOr(a.chunkErrorThreshold, DefaultThreshold),
          GetOr(a.chunkSize, DefaultChunkSize),
          GetOr(a.pollInterval, DefaultPollInterval),
          GetOr(a.createSchema, DefaultCreateSchema),
          a.dbSetup))
  }

  /** With only a bucket, a worker gets the documented defaults: DSN
      'Database', empty prefix, 'ignore', threshold 10, 5 MiB chunks, a
      300 second poll interval, and bootstrap enabled. */
  lemma WorkerDefaults(bucket: string)
    ensures NewWorker(WorkerArgs(Some(bucket), None, None, None, None, None, None, None, None, {}))
      == Ok(WorkerConfig("Database", bucket, "", Ignore, Limit(10), 5242880, 300, 1, None))
  {
  }

  /** The keyword arguments of `RadioPool(**kwargs)`. */
  datatype PoolArgs = PoolArgs(
    s3Bucket: Option<string>,
    s3Prefix: Option<string>,
    dsn: Option<string>,
    chunkErrorBehavior: Option<string>,
    chunkErrorThreshold: Option<Threshold>,
    chunkSize: Option<int>,
    createSchema: Option<int>,
    dbSetup: Option<DbSetup>,
    pollInterval: Option<int>,
    nTasks: Option<int>,
    extra: set<string>)

  /** A constructed supervisor's settings. The behaviour string is kept
      unvalidated, as the supervisor does not check it. */
  datatype PoolConfig = PoolConfig(
    s3Bucket: string,
    s3Prefix: string,
    dsn: string,
    chunkErrorBehavior: string,
    chunkErrorThreshold: Threshold,
    chunkSize: int,
    createSchema: int,
    dbSetup: Option<DbSetup>,
    pollInterval: int,
    nTasks: nat)

  /** `RadioPool.__init__` up to connecting: a missing bucket raises
      ValueError, leftover keys raise TypeError, and a process pool of
      fewer than one process raises ValueError. */
  function NewPool(a: PoolArgs): (r: Result<PoolConfig, ConfigError>)
    ensures r == Err(MissingBucket) <==> a.s3Bucket.None?
    ensures r.Err? && r.error.UnexpectedArgs? <==> a.s3Bucket.Some? && a.extra != {}
    ensures r.Ok? <==> a.s3Bucket.Some? && a.extra == {} && GetOr(a.nTasks, DefaultTasks) >= 1
    ensures r.Err? && !r.error.MissingBucket? && !r.error.UnexpectedArgs? ==>
      r == Err(BadPoolSize(GetOr(a.nTasks, DefaultTasks)))
    ensures r.Ok? ==>
      && r.value.s3Bucket == a.s3Bucket.value
      && r.value.nTasks == GetOr(a.nTasks, DefaultTasks)
      && r.value.chunkErrorBehavior == GetOr(a.chunkErrorBehavior, DefaultBehavior)
      && r.value.chunkErrorThreshold == GetOr(a.chunkErrorThreshold, DefaultThreshold)
      && r.value.dsn == GetOr(a.dsn, DefaultDsn)
      && r.value.s3Prefix == GetOr(a.s3Prefix, DefaultPrefix)
      && r.value.chunkSize == GetOr(a.chunkSize, DefaultChunkSize)
      && r.value.pollInterval == GetOr(a.pollInterval, DefaultPollInterval)
      && r.value.createSchema == GetOr(a.createSchema, DefaultCreateSchema)
      && r.value.dbSetup == a.dbSetup
  {
    if a.s3Bucket.None? then Err(MissingBucket)
    else if a.extra != {} then Err(UnexpectedArgs(a.extra))
    else
      var n := GetOr(a.nTasks, DefaultTasks);
      if n < 1 then Err(BadPoolSize(n))
      else
        Ok(PoolConfig(
          a.s3Bucket.value,
          GetOr(a.s3Prefix, DefaultPrefix),
          GetOr(a.dsn, DefaultDsn),
          GetOr(a.chunkErrorBehavior, DefaultBehavior),
          GetOr(a.chunkErrorThreshold, DefaultThreshold),
          GetOr(a.chunkSize, DefaultChunkSize),
          GetOr(a.createSchema, DefaultCreateSchema),
          a.dbSetup,
          GetOr(a.pollInterval, DefaultPollInterval),
          n))
  }

  /** The `args` dictionary `RadioPool.run` hands every worker: all nine
      keys present, nothing else. */
  function WorkerArgsFor(c: PoolConfig): WorkerArgs
  {
    WorkerArgs(
      Some(c.s3Bucket), Some(c.dsn), Some(c.s3Prefix),
      Some(c.chunkErrorBehavior), Some(c.chunkErrorThreshold),
      Some(c.chunkSize), Some(c.pollInterval), Some(c.createSchema),
      c.dbSetup, {})
  }

  /** A worker built from the supervisor's arguments inherits its settings,
      and fails exactly when the behaviour string is invalid; the supervisor
      never rejects it, so such a worker fails at every respawn. */
  lemma WorkerFromPoolArgs(c: PoolConfig)
    ensures NewWorker(WorkerArgsFor(c)).Ok? <==> ParsePolicy(c.chunkErrorBehavior).Some?
    ensures NewWorker(WorkerArgsFor(c)).Err? ==> NewWorker(WorkerArgsFor(c)) == Err(BadPolicy(c.chunkErrorBehavior))
    ensures NewWorker(WorkerArgsFor(c)).Ok? ==>
      var w := NewWorker(WorkerArgsFor(c)).value;
      && w.s3Bucket == c.s3Bucket && w.s3Prefix == c.s3Prefix && w.dsn == c.dsn
      && w.threshold == c.chunkErrorThreshold && w.chunkSize == c.chunkSize
      && w.pollInterval == c.pollInterval && w.createSchema == c.createSchema
      && w.dbSetup == c.dbSetup
  {
  }
}

=== FILE: ingest.dfy ===
/** The ingest loop of `RadioWorker.run`: the stop conditions checked at
    the top of each iteration, then one chunk pulled from the audio stream
    and uploaded, with its bookkeeping in the job store.

    The audio stream and the object store are an oracle: each iteration is
    given one `ChunkOutcome` saying what the `try` block did. */
module Ingest {
  import opened Outcomes
  import opened JobStore
  import opened Config
  import opened ObjectKeys

  /** Why a worker ends. Every one of these is an exception in Python; a
      worker has no other way to finish. */
  datatype Termination =
    | Cancelled                    // the held job row was deleted
    | TooManyFailures              // error_count reached the threshold
    | ChunkFault(error: string)    // a chunk failure re-raised under 'exit'
    | StreamEnded(error: string)   // StopIteration from the audio stream
    | SetupFailure(error: string)  // the bootstrap raised
    | StationMissing               // no data.station row for the claimed id
    | BadConfig(cause: ConfigError)

  /** Where in the `try` block a failure happened. `Opening` is the
      construction of the audio stream, attempted only while no stream
      exists. */
  datatype Stage = Opening | Fetching | Uploading

  /** What one iteration's `try` block did. */
  datatype ChunkOutcome =
    | Chunk(data: seq<bv8>, micros: nat)   // next(it) yielded; the upload at `micros` succeeded
    | Fail(stage: Stage, error: string)    // an exception other than StopIteration
    | EndOfStream(error: string)           // next(it) raised StopIteration

  /** The `stream` local of `run`. It is set once and never reset to
      `None`; `stream.close()` runs after every iteration. */
  datatype StreamState = NoStream | Open | Closed

  datatype S3Object = S3Object(bucket: string, key: string, data: seq<bv8>)

  /** What the loop reads and writes: the job rows, the chunk log, the
      uploaded objects and the stream handle. */
  datatype IngestState = IngestState(
    jobs: Jobs,
    chunks: seq<ChunkRecord>,
    objects: seq<S3Object>,
    stream: StreamState,
    opens: nat)

  /** The row returned by `get_stop_conditions`. */
  datatype StopConditions = StopConditions(deleted: bool, failed: bool)

  /** `get_stop_conditions` for the held id. `error_count >= NULL` is never
      true in SQL, so a disabled threshold never reports `failed`. */
  function GetStopConditions(jobs: Jobs, held: StationId, t: Threshold): (c: StopConditions)
    ensures c.deleted <==> held !in jobs
    ensures c.failed ==> held in jobs && t.Limit?
  {
    StopConditions(
      held !in jobs,
      held in jobs && match t
        case Disabled => false
        case Limit(n) => jobs[held].errorCount >= n)
  }

  /** For a row that exists, `failed` is exactly "not claim-eligible": a job
      a worker is made to drop is one no worker can claim, and the reverse. */
  lemma FailedIsNotEligible(jobs: Jobs, held: StationId, t: Threshold)
    ensures !(GetStopConditions(jobs, held, t).deleted && GetStopConditions(jobs, held, t).failed)
    ensures held in jobs ==> (GetStopConditions(jobs, held, t).failed <==> !Eligible(t, jobs[held]))
    ensures t.Disabled? ==> !GetStopConditions(jobs, held, t).failed
  {
  }

  /** The top of the loop: deleted is checked before failed. */
  function StopCheck(jobs: Jobs, held: StationId, t: Threshold): (r: Option<Termination>)
    ensures r == Some(Cancelled) <==> held !in jobs
    ensures r == Some(TooManyFailures) <==> held in jobs && !Eligible(t, jobs[held])
    ensures r.None? <==> held in jobs && Eligible(t, jobs[held])
  {
    var c := GetStopConditions(jobs, held, t);
    if c.deleted then Some(Cancelled)
    else if c.failed then Some(TooManyFailures)
    else None
  }

  /** The stream after the `finally` clause: whatever was opened is closed;
      a stream that was never built stays absent. */
  function AfterIteration(st: StreamState, out: ChunkOutcome): StreamState
  {
    if st.NoStream? && out.Fail? && out.stage == Opening then NoStream else Closed
  }

  /** The body of the `try`/`except`/`else`/`finally` block for the held
      station, whose display name is `station`. */
  function ApplyOutcome(cfg: WorkerConfig, held: StationId, station: string, st: IngestState, out: ChunkOutcome)
    : (r: (IngestState, Option<Termination>))
    ensures out.Chunk? ==>
      var key := ChunkKey(cfg.s3Prefix, station, out.micros);
      && r.0.jobs == st.jobs
      && r.0.chunks == st.chunks + [ChunkRecord(held, S3Url(cfg.s3Bucket, key))]
      && r.0.objects == st.objects + [S3Object(cfg.s3Bucket, key, out.data)]
      && r.1.None?
    ensures !out.Chunk? ==>
      && r.0.jobs.Keys == st.jobs.Keys
      && (held in st.jobs ==> r.0.jobs[held] == Job(st.jobs[held].errorCount + 1, Some(out.error)))
      && (forall k :: k in st.jobs && k != held ==> r.0.jobs[k] == st.jobs[k])
      && r.0.chunks == st.chunks
      && r.0.objects == st.objects
    ensures out.EndOfStream? ==> r.1 == Some(StreamEnded(out.error))
    ensures out.Fail? ==> (r.1.Some? <==> cfg.policy == Exit)
    ensures out.Fail? && cfg.policy == Exit ==> r.1 == Some(ChunkFault(out.error))
    ensures r.0.stream != Open
    ensures st.stream != NoStream ==> r.0.stream == Closed && r.0.opens == st.opens
  {
    var stream := AfterIteration(st.stream, out);
    var opens := if st.stream.NoStream? && stream.Closed? then st.opens + 1 else st.opens;
    match out
    case Chunk(data, micros) =>
      var key := ChunkKey(cfg.s3Prefix, station, micros);
      (IngestState(
        st.jobs,
        st.chunks + [ChunkRecord(held, S3Url(cfg.s3Bucket, key))],
        st.objects + [S3Object(cfg.s3Bucket, key, data)],
        stream, opens), None)
    case Fail(_, error) =>
      (st.(jobs := RecordFailure(st.jobs, held, error), stream := stream, opens := opens),
       if cfg.policy == Exit then Some(ChunkFault(error)) else None)
    case EndOfStream(error) =>
      (st.(jobs := RecordFailure(st.jobs, held, error), stream := stream, opens := opens),
       Some(StreamEnded(error)))
  }

  /** Where the loop is once the oracle is used up or the worker stopped. */
  datatype Progress =
    | Running(st: IngestState)                     // every given iteration completed; the next stop check is pending
    | Stopped(reason: Termination, st: IngestState)

  /** The `while True` loop run for `|outs|` iterations; iteration i pulls
      `outs[i]` if its stop check lets it get that far. */
  function Run(cfg: WorkerConfig, held: StationId, station: string, st: IngestState, outs: seq<ChunkOutcome>)
    : (p: Progress)
    ensures p.Stopped? ==>
      p.reason.Cancelled? || p.reason.TooManyFailures? || p.reason.ChunkFault? || p.reason.StreamEnded?
    ensures p.Stopped? && p.reason.ChunkFault? ==> cfg.policy == Exit
    ensures p.st.jobs.Keys == st.jobs.Keys
    ensures forall k :: k in st.jobs && k != held ==> p.st.jobs[k] == st.jobs[k]
    decreases |outs|
  {
    if |outs| == 0 then Running(st)
    else
      match StopCheck(st.jobs, held, cfg.threshold)
      case Some(reason) => Stopped(reason, st)
      case None =>
        var (st', stop) := ApplyOutcome(cfg, held, station, st, outs[0]);
        match stop
        case Some(reason) => Stopped(reason, st')
        case None => Run(cfg, held, station, st', outs[1..])
  }

  /** The loop written as the source writes it, proved to agree with `Run`. */
  method IngestLoop(cfg: WorkerConfig, held: StationId, station: string, st0: IngestState, outs: seq<ChunkOutcome>)
    returns (p: Progress)
    ensures p == Run(cfg, held, station, st0, outs)
  {
    var st := st0;
    var i := 0;
    while i < |outs|
      invariant 0 <= i <= |outs|
      invariant Run(cfg, held, station, st, outs[i..]) == Run(cfg, held, station, st0, outs)
    {
      var conds := GetStopConditions(st.jobs, held, cfg.threshold);
      if conds.deleted {
        return Stopped(Cancelled, st);
      } else if conds.failed {
        return Stopped(TooManyFailures, st);
      }
      assert outs[i..][1..] == outs[i + 1..];
      var (next, stop) := ApplyOutcome(cfg, held, station, st, outs[i]);
      if stop.Some? {
        return Stopped(stop.value, next);
      }
      st, i := next, i + 1;
    }
    return Running(st);
  }

  /** Running the loop over `a + b` is running it over `a` and, if it is
      still going, over `b` from where it stands. */
  lemma {:induction false} RunAppend(cfg: WorkerConfig, held: StationId, station: string, st: IngestState,
                                     a: seq<ChunkOutcome>, b: seq<ChunkOutcome>)
    ensures Run(cfg, held, station, st, a + b) ==
      match Run(cfg, held, station, st, a)
      case Running(st') => Run(cfg, held, station, st', b)
      case Stopped(_, _) => Run(cfg, held, station, st, a)
    decreases |a|
  {
    if |a| > 0 && StopCheck(st.jobs, held, cfg.threshold).None? {
      var (st', stop) := ApplyOutcome(cfg, held, station, st, a[0]);
      assert (a + b)[0] == a[0];
      assert (a + b)[1..] == a[1..] + b;
      if stop.None? {
        RunAppend(cfg, held, station, st', a[1..], b);
      }
    } else if |a| == 0 {
      assert a + b == b;
    }
  }

  /** Order of checks: a deleted row stops the worker with `Cancelled`, and
      an exhausted budget with `TooManyFailures`, before any chunk is pulled
      and without touching the store. */
  lemma ChecksPrecedeFetch(cfg: WorkerConfig, held: StationId, station: string, st: IngestState, outs: seq<ChunkOutcome>)
    requires |outs| > 0
    ensures held !in st.jobs ==> Run(cfg, held, station, st, outs) == Stopped(Cancelled, st)
    ensures held in st.jobs && !Eligible(cfg.threshold, st.jobs[held]) ==>
      Run(cfg, held, station, st, outs) == Stopped(TooManyFailures, st)
  {
  }

  /** Under 'exit', the first chunk failure ends the worker right after
      recording it; end-of-stream ends it under either policy. */
  lemma FailureEndsUnderExit(cfg: WorkerConfig, held: StationId, station: string, st: IngestState, outs: seq<ChunkOutcome>)
    requires held in st.jobs && Eligible(cfg.threshold, st.jobs[held])
    requires |outs| > 0 && !outs[0].Chunk?
    requires cfg.policy == Exit || outs[0].EndOfStream?
    ensures var p := Run(cfg, held, station, st, outs);
      && p.Stopped?
      && p.reason == (if outs[0].EndOfStream? then StreamEnded(outs[0].error) else ChunkFault(outs[0].error))
      && p.st.jobs == RecordFailure(st.jobs, held, outs[0].error)
  {
  }

  predicate AllFailures(outs: seq<ChunkOutcome>)
  {
    forall i :: 0 <= i < |outs| ==> outs[i].Fail?
  }

  /** Under 'ignore', K consecutive chunk failures that the budget admits
      raise `error_count` by exactly K, set `last_error` to the last one,
      leave every other row and the chunk log alone, and do not end the
      worker. */
  lemma {:induction false} IgnoredFailuresAccumulate(cfg: WorkerConfig, held: StationId, station: string,
                                                     st: IngestState, fails: seq<ChunkOutcome>)
    requires cfg.policy == Ignore
    requires AllFailures(fails)
    requires held in st.jobs
    requires cfg.threshold.Limit? ==> st.jobs[held].errorCount + |fails| <= cfg.threshold.n
    ensures var p := Run(cfg, held, station, st, fails);
      && p.Running?
      && p.st.jobs.Keys == st.jobs.Keys
      && p.st.jobs[held].errorCount == st.jobs[held].errorCount + |fails|
      && (|fails| > 0 ==> p.st.jobs[held].lastError == Some(fails[|fails| - 1].error))
      && (|fails| == 0 ==> p.st.jobs[held] == st.jobs[held])
      && (forall k :: k in st.jobs && k != held ==> p.st.jobs[k] == st.jobs[k])
      && p.st.chunks == st.chunks
    decreases |fails|
  {
    if |fails| > 0 {
      var (st', stop) := ApplyOutcome(cfg, held, station, st, fails[0]);
      assert AllFailures(fails[1..]) by {
        forall i | 0 <= i < |fails[1..]| ensures fails[1..][i].Fail? {
          assert fails[1..][i] == fails[i + 1];
        }
      }
      IgnoredFailuresAccumulate(cfg, held, station, st', fails[1..]);
      if |fails| > 1 {
        assert fails[1..][|fails[1..]| - 1] == fails[|fails| - 1];
      }
    }
  }

  /** Once the ignored failures bring `error_count` to the threshold, the
      very next stop check ends the worker with `TooManyFailures`, whatever
      the stream would have produced. */
  lemma ThresholdReachedStops(cfg: WorkerConfig, held: StationId, station: string,
                              st: IngestState, fails: seq<ChunkOutcome>, rest: seq<ChunkOutcome>)
    requires cfg.policy == Ignore
    requires AllFailures(fails)
    requires held in st.jobs
    requires cfg.threshold.Limit? && st.jobs[held].errorCount + |fails| == cfg.threshold.n
    requires |rest| > 0
    ensures var p := Run(cfg, held, station, st, fails);
      Run(cfg, held, station, st, fails + rest) == Stopped(TooManyFailures, p.st)
  {
    IgnoredFailuresAccumulate(cfg, held, station, st, fails);
    RunAppend(cfg, held, station, st, fails, rest);
  }

  predicate AllChunks(outs: seq<ChunkOutcome>)
  {
    forall i :: 0 <= i < |outs| ==> outs[i].Chunk?
  }

  /** The chunk records a run of successful uploads should leave, in order. */
  function RecordsFor(cfg: WorkerConfig, held: StationId, station: string, outs: seq<ChunkOutcome>): seq<ChunkRecord>
    requires AllChunks(outs)
  {
    seq(|outs|, i requires 0 <= i < |outs| =>
      ChunkRecord(held, S3Url(cfg.s3Bucket, ChunkKey(cfg.s3Prefix, station, outs[i].micros))))
  }

  /** The objects a run of successful uploads should leave, in order. */
  function ObjectsFor(cfg: WorkerConfig, station: string, outs: seq<ChunkOutcome>): seq<S3Object>
    requires AllChunks(outs)
  {
    seq(|outs|, i requires 0 <= i < |outs| =>
      S3Object(cfg.s3Bucket, ChunkKey(cfg.s3Prefix, station, outs[i].micros), outs[i].data))
  }

  /** Successful uploads append exactly one record and one object each, in
      the order the stream produced the chunks, and leave every job row
      unchanged. */
  lemma {:induction false} UploadsAppendInOrder(cfg: WorkerConfig, held: StationId, station: string,
                                                st: IngestState, outs: seq<ChunkOutcome>)
    requires AllChunks(outs)
    requires held in st.jobs && Eligible(cfg.threshold, st.jobs[held])
    ensures var p := Run(cfg, held, station, st, outs);
      && p.Running?
      && p.st.jobs == st.jobs
      && p.st.chunks == st.chunks + RecordsFor(cfg, held, station, outs)
      && p.st.objects == st.objects + ObjectsFor(cfg, station, outs)
    decreases |outs|
  {
    if |outs| > 0 {
      var (st', stop) := ApplyOutcome(cfg, held, station, st, outs[0]);
      assert AllChunks(outs[1..]) by {
        forall i | 0 <= i < |outs[1..]| ensures outs[1..][i].Chunk? {
          assert outs[1..][i] == outs[i + 1];
        }
      }
      UploadsAppendInOrder(cfg, held, station, st', outs[1..]);
      assert RecordsFor(cfg, held, station, outs) == RecordsFor(cfg, held, station, outs[..1]) + RecordsFor(cfg, held, station, outs[1..]);
      assert ObjectsFor(cfg, station, outs) == ObjectsFor(cfg, station, outs[..1]) + ObjectsFor(cfg, station, outs[1..]);
    } else {
      assert RecordsFor(cfg, held, station, outs) == [];
      assert ObjectsFor(cfg, station, outs) == [];
    }
  }

  /** Between iterations the stream is never open, and it has been built
      at most once: it is created while `stream is None` and never reset. */
  predicate StreamSettled(st: IngestState)
  {
    && st.stream != Open
    && st.opens <= 1
    && (st.stream == NoStream <==> st.opens == 0)
  }

  /** The loop keeps the stream settled: one run never builds a second
      stream, so every iteration after the first that built it pulls from
      the stream already closed by the previous `finally`. */
  lemma {:induction false} RunOpensStreamAtMostOnce(cfg: WorkerConfig, held: StationId, station: string,
                                                    st: IngestState, outs: seq<ChunkOutcome>)
    requires StreamSettled(st)
    ensures StreamSettled(Run(cfg, held, station, st, outs).st)
    decreases |outs|
  {
    if |outs| > 0 && StopCheck(st.jobs, held, cfg.threshold).None? {
      var (st', stop) := ApplyOutcome(cfg, held, station, st, outs[0]);
      assert StreamSettled(st');
      if stop.None? {
        RunOpensStreamAtMostOnce(cfg, held, station, st', outs[1..]);
      }
    }
  }
}

=== FILE: job_store.dfy ===
/** The shared job store: the `app.jobs` rows, the `app.chunks` audit log,
    the `data.station` reference rows and PostgreSQL's session-scoped
    advisory locks, which the workers use as a distributed mutex. */
module JobStore {
  import opened Outcomes

  type StationId = int

  /** One database connection, i.e. one worker's session. */
  type SessionId = nat

  /** A row of `app.jobs`: the failure ledger of one station. */
  datatype Job = Job(errorCount: int, lastError: Option<string>)

  type Jobs = map<StationId, Job>

  /** A row of `app.chunks`: one successful upload. */
  datatype ChunkRecord = ChunkRecord(stationId: StationId, s3Url: string)

  /** A row of `data.station`. */
  datatype StationRef = StationRef(callsign: string, band: string, streamUrl: string)

  /** Advisory lock keys. The one-argument form `pg_try_advisory_lock(k)`
      and the two-argument form `pg_try_advisory_lock(a, b)` live in
      disjoint key spaces, so they are distinct constructors here. */
  datatype LockKey = Single(key: int) | Pair(hi: int, lo: int)

  /** The reserved key of the bootstrap-once gate. */
  const SetupKey: LockKey := Pair(0, 0)

  /** The advisory-lock table: which session holds each held key. */
  type Locks = map<LockKey, SessionId>

  /** `chunk_error_threshold`: `None` disables the failure budget. */
  datatype Threshold = Disabled | Limit(n: int)

  /** The `where ? or j.error_count < ?` filter of the claim query: with a
      `None` threshold the first parameter is true. */
  predicate Eligible(t: Threshold, j: Job)
  {
    match t
    case Disabled => true
    case Limit(n) => j.errorCount < n
  }

  /** Another session holds `key`, so a try-lock by `me` fails. */
  predicate HeldByOther(locks: Locks, key: LockKey, me: SessionId)
  {
    key in locks && locks[key] != me
  }

  /** The keys `me` holds. */
  function HeldBy(locks: Locks, me: SessionId): set<LockKey>
  {
    set k | k in locks && locks[k] == me
  }

  /** `pg_try_advisory_lock`: never blocks; succeeds unless another session
      holds the key. */
  function TryLock(locks: Locks, key: LockKey, me: SessionId): (r: (bool, Locks))
    ensures r.0 <==> !HeldByOther(locks, key, me)
    ensures r.0 ==> key in r.1 && r.1[key] == me
    ensures forall k :: k != key ==> (k in r.1 <==> k in locks)
    ensures forall k :: k != key && k in r.1 ==> r.1[k] == locks[k]
    ensures !r.0 ==> r.1 == locks
  {
    if HeldByOther(locks, key, me) then (false, locks)
    else (true, locks[key := me])
  }

  /** `pg_advisory_unlock`: releases the key if `me` holds it; reports
      whether it did. */
  function Unlock(locks: Locks, key: LockKey, me: SessionId): (r: (bool, Locks))
    ensures r.0 <==> key in locks && locks[key] == me
    ensures r.0 ==> r.1 == locks - {key}
    ensures !r.0 ==> r.1 == locks
    ensures key !in r.1 || r.1[key] != me
    ensures forall k :: k != key ==> (k in r.1 <==> k in locks)
    ensures forall k :: k in r.1 ==> k in locks && r.1[k] == locks[k]
  {
    if key in locks && locks[key] == me then (true, locks - {key})
    else (false, locks)
  }

  /** The session of `me` ends (connection closed, process killed or
      network partition): PostgreSQL drops every advisory lock it held. */
  function EndSession(locks: Locks, me: SessionId): (r: Locks)
    ensures HeldBy(r, me) == {}
    ensures forall k :: k in r <==> k in locks && locks[k] != me
    ensures forall k :: k in r ==> r[k] == locks[k]
  {
    map k | k in locks && locks[k] != me :: locks[k]
  }

  /** The `update app.jobs set error_count = error_count + 1, last_error = ?
      where station_id = ?` statement; an absent row is updated nowhere. */
  function RecordFailure(jobs: Jobs, s: StationId, error: string): (r: Jobs)
    ensures r.Keys == jobs.Keys
    ensures s in jobs ==> r[s] == Job(jobs[s].errorCount + 1, Some(error))
    ensures forall k :: k in jobs && k != s ==> r[k] == jobs[k]
  {
    if s in jobs then jobs[s := Job(jobs[s].errorCount + 1, Some(error))]
    else jobs
  }

  /** Taking a key nobody holds and then releasing it restores the lock
      table: a released id is immediately claimable again. */
  lemma LockUnlockRoundTrip(locks: Locks, key: LockKey, me: SessionId)
    requires key !in locks
    ensures TryLock(locks, key, me).0
    ensures Unlock(TryLock(locks, key, me).1, key, me) == (true, locks)
  {
    var after := TryLock(locks, key, me).1;
    assert after - {key} == locks;
  }
}

=== FILE: object_keys.dfy ===
/** Object-storage keys and URLs of uploaded chunks: the key is
    `os.path.join(s3_prefix, station, str(microseconds))` and the recorded
    URL is `'s3://' + bucket + '/' + key`. */
module ObjectKeys {

  predicate IsDigit(c: char)
  {
    '0' <= c <= '9'
  }

  predicate AllDigits(s: string)
  {
    forall i :: 0 <= i < |s| ==> IsDigit(s[i])
  }

  function DigitChar(d: nat): (c: char)
    requires d < 10
  {
    (('0' as int) + d) as char
  }

  function DigitValue(c: char): (d: nat)
    requires IsDigit(c)
  {
    (c as int) - ('0' as int)
  }

  /** `str(n)` for the non-negative microsecond timestamp. */
  function Decimal(n: nat): (s: string)
    ensures |s| > 0
    ensures AllDigits(s)
    ensures n > 0 ==> s[0] != '0'
    ensures |s| > 1 ==> s[0] != '0'
    decreases n
  {
    if n < 10 then [DigitChar(n)]
    else Decimal(n / 10) + [DigitChar(n % 10)]
  }

  /** Reads a decimal string back: the inverse of `Decimal`. */
  function ParseDecimal(s: string): nat
    requires AllDigits(s)
    decreases |s|
  {
    if |s| == 0 then 0
    else ParseDecimal(s[..|s| - 1]) * 10 + DigitValue(s[|s| - 1])
  }

  lemma {:induction false} ParseDecimalRoundTrip(n: nat)
    ensures ParseDecimal(Decimal(n)) == n
    decreases n
  {
    var s := Decimal(n);
    if n < 10 {
      assert s[..|s| - 1] == [];
    } else {
      assert s[..|s| - 1] == Decimal(n / 10);
      ParseDecimalRoundTrip(n / 10);
    }
  }

  /** Distinct timestamps render as distinct strings. */
  lemma DecimalInjective(m: nat, n: nat)
    requires Decimal(m) == Decimal(n)
    ensures m == n
  {
    ParseDecimalRoundTrip(m);
    ParseDecimalRoundTrip(n);
  }

  /** POSIX `os.path.join(a, b)`: an absolute `b` replaces `a`; otherwise a
      separator is inserted unless `a` is empty or already ends in one. */
  function Join(a: string, b: string): string
  {
    if |b| > 0 && b[0] == '/' then b
    else if |a| == 0 || a[|a| - 1] == '/' then a + b
    else a + "/" + b
  }

  /** `os.path.join(s3_prefix, station, tm)`. */
  function ChunkKey(prefix: string, station: string, micros: nat): string
  {
    Join(Join(prefix, station), Decimal(micros))
  }

  /** The URL recorded in `app.chunks`. */
  function S3Url(bucket: string, key: string): string
  {
    "s3://" + bucket + "/" + key
  }

  /** The key reads `prefix/station/timestamp`, or `station/timestamp` with
      the default empty prefix, when the parts carry no stray separators. */
  lemma ChunkKeyLayout(prefix: string, station: string, micros: nat)
    requires |station| > 0 && station[0] != '/' && station[|station| - 1] != '/'
    requires prefix == [] || prefix[|prefix| - 1] != '/'
    ensures prefix == [] ==> ChunkKey(prefix, station, micros) == station + "/" + Decimal(micros)
    ensures prefix != [] ==> ChunkKey(prefix, station, micros) == prefix + "/" + station + "/" + Decimal(micros)
  {
    var tm := Decimal(micros);
    assert IsDigit(tm[0]);
    var head := Join(prefix, station);
    assert |head| > 0 && head[|head| - 1] == station[|station| - 1];
  }

  lemma JoinRelativeInjective(a: string, b1: string, b2: string)
    requires |b1| > 0 && b1[0] != '/'
    requires |b2| > 0 && b2[0] != '/'
    requires Join(a, b1) == Join(a, b2)
    ensures b1 == b2
  {
    if |a| == 0 || a[|a| - 1] == '/' {
      assert b1 == Join(a, b1)[|a|..];
      assert b2 == Join(a, b2)[|a|..];
    } else {
      assert b1 == Join(a, b1)[|a| + 1..];
      assert b2 == Join(a, b2)[|a| + 1..];
    }
  }

  /** Two chunks of one station uploaded at different microseconds never
      share a key, whatever the prefix and station name. */
  lemma ChunkKeysDistinct(prefix: string, station: string, m1: nat, m2: nat)
    requires m1 != m2
    ensures ChunkKey(prefix, station, m1) != ChunkKey(prefix, station, m2)
  {
    if ChunkKey(prefix, station, m1) == ChunkKey(prefix, station, m2) {
      var d1, d2 := Decimal(m1), Decimal(m2);
      assert IsDigit(d1[0]) && IsDigit(d2[0]);
      JoinRelativeInjective(Join(prefix, station), d1, d2);
      DecimalInjective(m1, m2);
    }
  }

  /** Distinct keys give distinct recorded URLs in one bucket. */
  lemma S3UrlInjective(bucket: string, k1: string, k2: string)
    requires S3Url(bucket, k1) == S3Url(bucket, k2)
    ensures k1 == k2
  {
    var n := |"s3://" + bucket + "/"|;
    assert k1 == S3Url(bucket, k1)[n..];
    assert k2 == S3Url(bucket, k2)[n..];
  }
}

=== FILE: ordering.dfy ===
/** The least element of a finite set of integers: the `order by station_id
    limit 1` step the claim query repeats. */
module Ordering {

  /** A set that is not empty has a member. */
  lemma HasElement(s: set<int>)
    requires s != {}
    ensures exists y :: y in s
  {
    if forall y :: y !in s {
      assert false;
    }
  }

  /** A subset is no larger than its superset. */
  lemma {:induction false} SubsetNoLarger(a: set<int>, b: set<int>)
    requires a <= b
    ensures |a| <= |b|
  {
    if a != {} {
      HasElement(a);
      var x :| x in a;
      SubsetNoLarger(a - {x}, b - {x});
    }
  }

  /** Every non-empty finite set of integers has a least element. */
  lemma {:induction false} LeastExists(s: set<int>)
    requires s != {}
    ensures exists m :: m in s && forall x :: x in s ==> m <= x
  {
    HasElement(s);
    var y :| y in s;
    if s == {y} {
      assert forall x :: x in s ==> y <= x;
    } else {
      var rest := s - {y};
      LeastExists(rest);
      var m :| m in rest && forall x :: x in rest ==> m <= x;
      var w := if y < m then y else m;
      forall x | x in s
        ensures w <= x
      {
        if x != y {
          assert x in rest;
        }
      }
      assert w in s;
    }
  }
}

module LeastElement {
  import opened Ordering

  /** The least element of `s`; it is unique, so this is computable. */
  function Least(s: set<int>): (m: int)
    requires s != {}
    ensures m in s
    ensures forall x :: x in s ==> m <= x
  {
    LeastExists(s);
    var m :| m in s && forall x :: x in s ==> m <= x; m
  }
}

=== FILE: outcomes.dfy ===
/** Option and Result values for the error paths the Python code expresses
    with `None` and with raised exceptions. */
module Outcomes {

  /** A value that may be missing (`None` in Python). */
  datatype Option<+T> = None | Some(value: T)

  /** A computation that either produces a value or raises an error. */
  datatype Result<+T, +E> = Ok(value: T) | Err(error: E)
}

=== FILE: pool.dfy ===
/** The supervisor of `RadioPool.run`: start `n_tasks` workers with one
    shared argument record, then on every poll look at each slot in order;
    a worker that returned is a fatal error, a worker that raised is
    replaced in the same slot. */
module Pool {
  import opened Outcomes
  import opened Config
  import opened Worker

  /** One entry of `results`: the arguments it was started with, how many
      times the slot has been refilled, and its `AsyncResult` state
      (`None` while not `ready()`). */
  datatype Slot = Slot(args: WorkerArgs, generation: nat, status: Option<WorkerExit>)

  /** A freshly started worker in a slot refilled `generation` times. */
  function Fresh(args: WorkerArgs, generation: nat): Slot
  {
    Slot(args, generation, None)
  }

  /** Every slot was started from `args`. */
  predicate AllStartedWith(slots: seq<Slot>, args: WorkerArgs)
  {
    forall i :: 0 <= i < |slots| ==> slots[i].args == args
  }

  /** The initial `apply_async` loop. */
  method Spawn(c: PoolConfig) returns (slots: seq<Slot>)
    ensures |slots| == c.nTasks
    ensures AllStartedWith(slots, WorkerArgsFor(c))
    ensures forall i :: 0 <= i < |slots| ==> slots[i].status.None? && slots[i].generation == 0
  {
    var args := WorkerArgsFor(c);
    slots := [];
    var i := 0;
    while i < c.nTasks
      invariant i <= c.nTasks
      invariant |slots| == i
      invariant forall j :: 0 <= j < i ==> slots[j] == Fresh(args, 0)
    {
      slots := slots + [Fresh(args, 0)];
      i := i + 1;
    }
  }

  /** What a tick does to one slot that did not return successfully. */
  function Refill(args: WorkerArgs, s: Slot): Slot
  {
    if s.status.None? then s else Fresh(args, s.generation + 1)
  }

  /** How one poll of the supervisor ends. */
  datatype TickResult =
    | Continue(slots: seq<Slot>)
    | Fatal(index: nat)   // ValueError("Incorrect termination by ingest worker")

  predicate ReturnedAt(slots: seq<Slot>, i: int)
  {
    0 <= i < |slots| && slots[i].status == Some(Returned)
  }

  /** One pass of `for (i, res) in enumerate(results)`, from slot `i` on:
      slots before `i` have already been handled and `results[i]` is
      overwritten as the loop goes. */
  function TickFrom(args: WorkerArgs, results: seq<Slot>, i: nat): (r: TickResult)
    requires i <= |results|
    ensures r.Fatal? <==> exists j :: i <= j < |results| && ReturnedAt(results, j)
    ensures r.Fatal? ==> i <= r.index && ReturnedAt(results, r.index)
    ensures r.Fatal? ==> forall j :: i <= j < r.index ==> !ReturnedAt(results, j)
    ensures r.Continue? ==> |r.slots| == |results|
    ensures r.Continue? ==> forall j :: 0 <= j < i ==> r.slots[j] == results[j]
    ensures r.Continue? ==> forall j :: i <= j < |results| ==> r.slots[j] == Refill(args, results[j])
    decreases |results| - i
  {
    if i == |results| then Continue(results)
    else
      match results[i].status
      case None => TickFrom(args, results, i + 1)
      case Some(Returned) =>
        assert ReturnedAt(results, i);
        Fatal(i)
      case Some(Raised(_)) =>
        var respawned := results[i := Fresh(args, results[i].generation + 1)];
        assert forall j :: i < j < |results| ==> (ReturnedAt(respawned, j) <==> ReturnedAt(results, j));
        TickFrom(args, respawned, i + 1)
  }

  /** One poll of the supervisor over every slot. */
  function Tick(args: WorkerArgs, slots: seq<Slot>): (r: TickResult)
  {
    TickFrom(args, slots, 0)
  }

  /** Success is fatal, failure is respawned, running slots are left alone:
      the tick fails exactly when some slot returned, naming the first
      such slot; otherwise it keeps the slot count and replaces exactly
      the finished workers, in place, with fresh ones from `args`. */
  lemma TickOutcome(args: WorkerArgs, slots: seq<Slot>)
    ensures var r := Tick(args, slots);
      && (r.Fatal? <==> exists i :: 0 <= i < |slots| && ReturnedAt(slots, i))
      && (r.Fatal? ==> ReturnedAt(slots, r.index) && forall j :: 0 <= j < r.index ==> !ReturnedAt(slots, j))
      && (r.Continue? ==> |r.slots| == |slots|)
      && (r.Continue? ==> forall i :: 0 <= i < |slots| && slots[i].status.None? ==> r.slots[i] == slots[i])
      && (r.Continue? ==> forall i :: 0 <= i < |slots| && slots[i].status.Some? ==>
            r.slots[i] == Fresh(args, slots[i].generation + 1))
  {
  }

  /** Between polls, running workers may finish: `obs[i]` is what slot i's
      `AsyncResult` reports now. A finished slot stays finished. */
  function Observe(slots: seq<Slot>, obs: seq<Option<WorkerExit>>): (r: seq<Slot>)
    ensures |r| == |slots|
    ensures forall i :: 0 <= i < |slots| ==> r[i].args == slots[i].args && r[i].generation == slots[i].generation
  {
    seq(|slots|, i requires 0 <= i < |slots| =>
      if i < |obs| && slots[i].status.None? then slots[i].(status := obs[i]) else slots[i])
  }

  /** The supervisor's state after some polls. */
  datatype Supervisor = Supervising(slots: seq<Slot>) | Failed(index: nat)

  /** `while True`: one observation per poll, then the tick. */
  function Supervise(args: WorkerArgs, slots: seq<Slot>, rounds: seq<seq<Option<WorkerExit>>>): Supervisor
    decreases |rounds|
  {
    if |rounds| == 0 then Supervising(slots)
    else
      match Tick(args, Observe(slots, rounds[0]))
      case Fatal(i) => Failed(i)
      case Continue(next) => Supervise(args, next, rounds[1..])
  }

  /** Respawn keeps N: however many polls pass and however the workers
      die, the supervisor keeps exactly as many slots as it started with,
      all running workers with the same arguments. */
  lemma {:induction false} SuperviseKeepsSlots(args: WorkerArgs, slots: seq<Slot>, rounds: seq<seq<Option<WorkerExit>>>)
    requires AllStartedWith(slots, args)
    ensures var s := Supervise(args, slots, rounds);
      s.Supervising? ==> |s.slots| == |slots| && AllStartedWith(s.slots, args)
    decreases |rounds|
  {
    if |rounds| > 0 {
      var seen := Observe(slots, rounds[0]);
      var r := Tick(args, seen);
      if r.Continue? {
        assert AllStartedWith(r.slots, args) by {
          forall i | 0 <= i < |r.slots| ensures r.slots[i].args == args {
            assert r.slots[i] == Refill(args, seen[i]);
          }
        }
        SuperviseKeepsSlots(args, r.slots, rounds[1..]);
      }
    }
  }

  predicate NeverReturns(rounds: seq<seq<Option<WorkerExit>>>)
  {
    forall r, i :: 0 <= r < |rounds| && 0 <= i < |rounds[r]| ==> rounds[r][i] != Some(Returned)
  }

  predicate NoneReturned(slots: seq<Slot>)
  {
    forall i :: 0 <= i < |slots| ==> slots[i].status != Some(Returned)
  }

  /** With workers that only ever raise, which `Payload` guarantees, the
      fatal branch is never taken. */
  lemma {:induction false} SuperviseNeverFailsWithRealWorkers(args: WorkerArgs, slots: seq<Slot>, rounds: seq<seq<Option<WorkerExit>>>)
    requires NoneReturned(slots)
    requires NeverReturns(rounds)
    ensures Supervise(args, slots, rounds).Supervising?
    decreases |rounds|
  {
    if |rounds| > 0 {
      var seen := Observe(slots, rounds[0]);
      assert !exists i :: 0 <= i < |seen| && ReturnedAt(seen, i) by {
        forall i | 0 <= i < |seen|
          ensures !ReturnedAt(seen, i)
        {
          if i < |rounds[0]| && slots[i].status.None? {
            assert seen[i].status == rounds[0][i];
          }
        }
      }
      var next := Tick(args, seen).slots;
      assert NoneReturned(next) by {
        forall i | 0 <= i < |next| ensures next[i].status != Some(Returned) {
          assert next[i] == Refill(args, seen[i]);
        }
      }
      assert NeverReturns(rounds[1..]) by {
        forall r, i | 0 <= r < |rounds[1..]| && 0 <= i < |rounds[1..][r]|
          ensures rounds[1..][r][i] != Some(Returned)
        {
          assert rounds[1..][r] == rounds[r + 1];
        }
      }
      SuperviseNeverFailsWithRealWorkers(args, next, rounds[1..]);
    }
  }
}

=== FILE: scenarios.dfy ===
/** Small end-to-end runs of the model: the behaviours the worker
    promises, checked on concrete job stores. */
module Scenarios {
  import opened Outcomes
  import opened JobStore
  import opened Config
  import opened Claim
  import opened Ingest
  import opened Cluster

  /** A worker with threshold 3 and policy 'ignore' that fails on every
      iteration stops with `TooManyFailures` on its fourth stop check, the
      row records three failures and the last message, and once its lock
      is gone no worker claims station 7 again. */
  lemma FailingStationIsRetired(cfg: WorkerConfig, chunk: ChunkOutcome, other: SessionId)
    requires cfg.policy == Ignore && cfg.threshold == Limit(3)
    ensures var st := IngestState(map[7 := Job(0, None)], [], [], NoStream, 0);
      var fails := [Fail(Fetching, "e1"), Fail(Uploading, "e2"), Fail(Fetching, "e3")];
      var p := Run(cfg, 7, "KXYZ-FM", st, fails + [chunk]);
      && p == Stopped(TooManyFailures, p.st)
      && p.st.jobs[7] == Job(3, Some("e3"))
      && p.st.chunks == []
      && LockTask(p.st.jobs, cfg.threshold, map[], other) == (None, map[])
  {
    var st := IngestState(map[7 := Job(0, None)], [], [], NoStream, 0);
    var fails := [Fail(Fetching, "e1"), Fail(Uploading, "e2"), Fail(Fetching, "e3")];
    assert AllFailures(fails);
    IgnoredFailuresAccumulate(cfg, 7, "KXYZ-FM", st, fails);
    ThresholdReachedStops(cfg, 7, "KXYZ-FM", st, fails, [chunk]);
    var jobs := Run(cfg, 7, "KXYZ-FM", st, fails).st.jobs;
    assert jobs.Keys == {7};
    LockTaskIsLeastClaimable(jobs, cfg.threshold, map[], other, 7);
  }

  /** Two workers on jobs {5, 9}, both past the bootstrap and claiming:
      the first takes the smaller id, the second finds it locked, skips it
      and takes the other. */
  lemma TwoWorkersSplitTheJobs(mode: SetupMode, t: Threshold, cat: Bootstrap.Catalog)
    requires Eligible(t, Job(0, None))
    ensures var jobs := map[5 := Job(0, None), 9 := Job(0, None)];
      var c := Steps(ClusterState(jobs, map[], cat, map[1 := Claiming, 2 := Claiming], 0), mode, t,
                     [ClaimJob(1), ClaimJob(2)]);
      && c.live == map[1 := Holding(5), 2 := Holding(9)]
      && c.locks == map[Single(5) := 1, Single(9) := 2]
  {
    var jobs := map[5 := Job(0, None), 9 := Job(0, None)];
    var c0 := ClusterState(jobs, map[], cat, map[1 := Claiming, 2 := Claiming], 0);
    var l5 := map[Single(5) := 1];
    var c1 := ClusterState(jobs, l5, cat, map[1 := Holding(5), 2 := Claiming], 0);
    var c2 := ClusterState(jobs, l5[Single(9) := 2], cat, map[1 := Holding(5), 2 := Holding(9)], 0);
    ClaimStepTakesLeast(c0, mode, t, 1, 5);
    assert Step(c0, mode, t, ClaimJob(1)) == c1;
    ClaimStepTakesLeast(c1, mode, t, 2, 9);
    assert HeldByOther(l5, Single(5), 2);
    assert Step(c1, mode, t, ClaimJob(2)) == c2;
    StepsTwo(c0, mode, t, ClaimJob(1), ClaimJob(2));
  }

  /** The worker holding station 12 crashes: the server ends its session,
      and the other worker's next claim takes 12. */
  lemma CrashedHolderReleases(mode: SetupMode, t: Threshold, cat: Bootstrap.Catalog)
    requires Eligible(t, Job(0, None))
    ensures var jobs := map[12 := Job(0, None)];
      var c := ClusterState(jobs, map[Single(12) := 1], cat, map[1 := Holding(12), 2 := Claiming], 0);
      && Step(c, mode, t, ClaimJob(2)) == c
      && Step(Step(c, mode, t, Crash(1)), mode, t, ClaimJob(2)).live == map[2 := Holding(12)]
      && Step(Step(c, mode, t, Crash(1)), mode, t, ClaimJob(2)).locks == map[Single(12) := 2]
  {
    var jobs := map[12 := Job(0, None)];
    LockTaskIsLeastClaimable(jobs, t, map[Single(12) := 1], 2, 12);
    var c := ClusterState(jobs, map[Single(12) := 1], cat, map[1 := Holding(12), 2 := Claiming], 0);
    var c1 := Step(c, mode, t, Crash(1));
    assert c1.locks == map[];
    assert c1.live == map[2 := Claiming];
    LockTaskIsLeastClaimable(jobs, t, map[], 2, 12);
  }
}

=== FILE: worker.dfy ===
/** A worker's life, `payload(args)`: construct `RadioWorker(**args)`, then
    inside its context manager run the bootstrap gate, claim a job, look up
    its station and ingest until something ends the worker; `close()` runs
    on every way out of the `with` block. */
module Worker {
  import opened Outcomes
  import opened JobStore
  import opened Config
  import opened Claim
  import opened Ingest
  import opened Bootstrap

  /** The fields of a `RadioWorker` that change over its life. */
  datatype Session = Session(
    id: SessionId,
    stationId: Option<StationId>,
    station: Option<string>,
    streamUrl: Option<string>)

  /** `release_lock()` and `db.close()`, each with its errors swallowed: the
      held id is unlocked (a `None` id unlocks nothing), then the session
      ends and the server drops every lock it still held. */
  function Disconnect(locks: Locks, me: SessionId, held: Option<StationId>): (r: Locks)
    ensures HeldBy(r, me) == {}
    ensures forall k :: k in r <==> k in locks && locks[k] != me
    ensures forall k :: k in r ==> r[k] == locks[k]
  {
    var released := match held
      case Some(s) => Unlock(locks, Single(s), me).1
      case None => locks;
    EndSession(released, me)
  }

  /** `close()`: drops this session's locks and clears `station_id` and
      `stream_url`; the display name `station` is left as it was. */
  function Close(s: Session, locks: Locks): (r: (Session, Locks))
    ensures r.0.stationId.None? && r.0.streamUrl.None?
    ensures r.0.id == s.id && r.0.station == s.station
    ensures HeldBy(r.1, s.id) == {}
    ensures forall k :: k in locks && locks[k] != s.id ==> k in r.1 && r.1[k] == locks[k]
    ensures forall k :: k in r.1 ==> k in locks && r.1[k] == locks[k]
  {
    (s.(stationId := None, streamUrl := None), Disconnect(locks, s.id, s.stationId))
  }

  /** Closing twice is closing once: `__exit__` may re-enter `close()`. */
  lemma CloseIdempotent(s: Session, locks: Locks)
    ensures var (s1, l1) := Close(s, locks); Close(s1, l1) == (s1, l1)
  {
    var (s1, l1) := Close(s, locks);
    assert Disconnect(l1, s.id, None) == l1;
  }

  /** Claiming and then closing is ending the session: the claimed key
      goes, and so does every lock the session held before the claim, such
      as the bootstrap key (0, 0) of the worker that won the gate. */
  lemma ClaimThenCloseRestores(jobs: Jobs, t: Threshold, locks: Locks, me: SessionId)
    ensures var (claimed, after) := LockTask(jobs, t, locks, me);
      Close(Session(me, claimed, None, None), after).1 == EndSession(locks, me)
  {
    var (claimed, after) := LockTask(jobs, t, locks, me);
    var closed := Close(Session(me, claimed, None, None), after).1;
    LockTaskLocksOnlyResult(jobs, t, locks, me);
    assert closed.Keys == EndSession(locks, me).Keys;
  }

  /** For a session that held no lock, claiming and then closing gives the
      lock table back exactly as it was before the claim. */
  lemma ClaimThenCloseRestoresTable(jobs: Jobs, t: Threshold, locks: Locks, me: SessionId)
    requires HeldBy(locks, me) == {}
    ensures var (claimed, after) := LockTask(jobs, t, locks, me);
      Close(Session(me, claimed, None, None), after).1 == locks
  {
    ClaimThenCloseRestores(jobs, t, locks, me);
    forall k | k in locks
      ensures locks[k] != me
    {
      assert k !in HeldBy(locks, me);
    }
    assert EndSession(locks, me) == locks;
  }

  /** The database as one worker sees it. */
  datatype Db = Db(
    jobs: Jobs,
    chunks: seq<ChunkRecord>,
    objects: seq<S3Object>,
    locks: Locks,
    catalog: Catalog)

  /** How `payload` finished, as the supervisor's `AsyncResult` reports it. */
  datatype WorkerExit = Returned | Raised(reason: Termination)

  /** Leave the `with` block because of `reason`: `close()` runs, then the
      exception propagates out of `payload`. */
  function Terminate(reason: Termination, s: Session, db: Db): (r: (Option<WorkerExit>, Db))
    ensures r.0 == Some(Raised(reason))
    ensures r.1 == db.(locks := r.1.locks)
    ensures HeldBy(r.1.locks, s.id) == {}
    ensures forall k :: k in r.1.locks <==> k in db.locks && db.locks[k] != s.id
    ensures forall k :: k in r.1.locks ==> r.1.locks[k] == db.locks[k]
  {
    (Some(Raised(reason)), db.(locks := Close(s, db.locks).1))
  }

  /** The display name `callsign || '-' || band`. */
  function StationName(ref: StationRef): string
  {
    ref.callsign + "-" + ref.band
  }

  /** `payload(args)` for session `me`, with nobody else touching the
      database meanwhile. `setup` is what the bootstrap work does if this
      worker gets to run it, and `outs` what the stream and the upload do in
      successive iterations. `None` means the worker is still alive: still
      spinning in `acquire_task` because nothing is claimable, or still
      ingesting when `outs` runs out. The setup work commits as the code
      runs it, statement by statement (`Bootstrap.DoDbSetupAsWritten`). */
  function Payload(args: WorkerArgs, me: SessionId, db: Db, setup: SetupOutcome, outs: seq<ChunkOutcome>)
    : (r: (Option<WorkerExit>, Db))
    ensures r.0 != Some(Returned)
    ensures r.0.Some? && r.0.value.reason.BadConfig? ==> r.1 == db
    ensures r.0.Some? && !r.0.value.reason.BadConfig? ==> HeldBy(r.1.locks, me) == {}
    ensures forall k :: k in r.1.locks && r.1.locks[k] != me ==> k in db.locks && db.locks[k] == r.1.locks[k]
    ensures forall k :: k in db.locks && db.locks[k] != me ==> k in r.1.locks && r.1.locks[k] == db.locks[k]
    ensures NewWorker(args).Err? <==> r.0.Some? && r.0.value.reason.BadConfig?
  {
    match NewWorker(args)
    case Err(e) => (Some(Raised(BadConfig(e))), db)
    case Ok(cfg) =>
      var (setupResult, locks1, catalog1) :=
        if cfg.createSchema != 0 then DoDbSetupAsWritten(db.locks, me, db.catalog, setup)
        else (Skipped, db.locks, db.catalog);
      var db1 := db.(locks := locks1, catalog := catalog1);
      match setupResult
      case Failed(error) => Terminate(SetupFailure(error), Session(me, None, None, None), db1)
      case _ => ClaimAndIngest(cfg, me, db1, outs)
  }

  /** The part of `payload` after the bootstrap: `acquire_task`, the station
      lookup and `run()`, ending in `close()` on every exception. */
  function ClaimAndIngest(cfg: WorkerConfig, me: SessionId, db: Db, outs: seq<ChunkOutcome>)
    : (r: (Option<WorkerExit>, Db))
    ensures r.0 != Some(Returned)
    ensures r.0.Some? ==> !r.0.value.reason.BadConfig? && HeldBy(r.1.locks, me) == {}
    ensures forall k :: k in r.1.locks && r.1.locks[k] != me ==> k in db.locks && db.locks[k] == r.1.locks[k]
    ensures forall k :: k in db.locks && db.locks[k] != me ==> k in r.1.locks && r.1.locks[k] == db.locks[k]
    ensures r.1.catalog == db.catalog
  {
    LockTaskLocksOnlyResult(db.jobs, cfg.threshold, db.locks, me);
    var (claimed, locks2) := LockTask(db.jobs, cfg.threshold, db.locks, me);
    var db2 := db.(locks := locks2);
    match claimed
    case None => (None, db2)
    case Some(k) =>
      if k !in db2.catalog.stations then
        Terminate(StationMissing, Session(me, Some(k), None, None), db2)
      else
        var ref := db2.catalog.stations[k];
        var held := Session(me, Some(k), Some(StationName(ref)), Some(ref.streamUrl));
        var st := IngestState(db2.jobs, db2.chunks, db2.objects, NoStream, 0);
        match Run(cfg, k, StationName(ref), st, outs)
        case Running(st') =>
          (None, db2.(jobs := st'.jobs, chunks := st'.chunks, objects := st'.objects))
        case Stopped(reason, st') =>
          Terminate(reason, held, db2.(jobs := st'.jobs, chunks := st'.chunks, objects := st'.objects))
  }

  /** The worker that runs the bootstrap on a fresh database and whose
      download fails after the schema script raises `SetupFailure`, holds
      no lock afterwards, and leaves the `app` marker without the data. */
  lemma SetupFailureLeavesMarker(args: WorkerArgs, me: SessionId, db: Db, e: string, outs: seq<ChunkOutcome>)
    requires NewWorker(args).Ok? && NewWorker(args).value.createSchema != 0
    requires !db.catalog.schemaExists && !db.catalog.loaded
    requires !HeldByOther(db.locks, SetupKey, me)
    ensures var (exit, db') := Payload(args, me, db, FailedAfterSchema(e), outs);
      && exit == Some(Raised(SetupFailure(e)))
      && db'.catalog.schemaExists && !db'.catalog.loaded
      && HeldBy(db'.locks, me) == {}
      && db'.jobs == db.jobs
  {
  }

  /** A worker that claimed nothing, because every eligible job is held by
      another session, stays alive without changing any row. */
  lemma NothingClaimableKeepsSpinning(args: WorkerArgs, me: SessionId, db: Db, outs: seq<ChunkOutcome>)
    requires NewWorker(args).Ok? && NewWorker(args).value.createSchema == 0
    requires forall j :: j in db.jobs ==> !Claimable(db.jobs, NewWorker(args).value.threshold, db.locks, me, j)
    ensures Payload(args, me, db, FailedBeforeSchema(""), outs) == (None, db)
  {
    LockTaskIsLeastClaimable(db.jobs, NewWorker(args).value.threshold, db.locks, me, 0);
  }

  /** With the bootstrap on and the schema already in place, a worker that
      finds nothing claimable stays alive; the one change it leaves behind is
      the bootstrap lock, which it holds unless another session does. */
  lemma SetUpAndNothingClaimableKeepsSpinning(args: WorkerArgs, me: SessionId, db: Db, setup: SetupOutcome, outs: seq<ChunkOutcome>)
    requires NewWorker(args).Ok? && NewWorker(args).value.createSchema != 0
    requires db.catalog.schemaExists
    requires forall j :: j in db.jobs ==> !Claimable(db.jobs, NewWorker(args).value.threshold, db.locks, me, j)
    ensures Payload(args, me, db, setup, outs)
      == (None, if HeldByOther(db.locks, SetupKey, me) then db else db.(locks := db.locks[SetupKey := me]))
  {
    var t := NewWorker(args).value.threshold;
    var locks1 := DoDbSetupAsWritten(db.locks, me, db.catalog, setup).1;
    forall j | j in db.jobs
      ensures !Claimable(db.jobs, t, locks1, me, j)
    {
      assert HeldByOther(locks1, Single(j), me) == HeldByOther(db.locks, Single(j), me);
    }
    LockTaskIsLeastClaimable(db.jobs, t, locks1, me, 0);
  }
}
